=== FILE: README.md ===
# life_expectancy — a Dafny model of the cleaning core

The `life_expectancy` package reads Eurostat life-expectancy tables and cleans them down
to the observations of one region. It has two cleaning strategies, and `main` picks one
from the input file's suffix:

- `CleanTSV.clean_data` handles the wide tab-separated export. That table has one
  composite key column, `unit,sex,age,geo\time`, and one column per year.
  - The key header and every key cell are split on `,`.
  - The table is unpivoted into one row per (key combination, year).
  - The fourth key column is renamed `region`, and the year labels are converted to
    integers.
  - The leading numeric token (`[0-9]+\.?[0-9]`) is extracted from each raw value.
  - Rows without a token are dropped, and then rows of other regions.
- `CleanJSON.clean_data` handles the zipped JSON export.
  - The `flag` and `flag_detail` columns are dropped.
  - `country` is renamed to `region` and `life_expectancy` to `value`.
  - Rows of the requested region are kept.
- `Region` is the enumeration of the 56 Eurostat region codes.
  `Region.list_all_countries` lists the values of its members, leaving out the eight
  country groupings.

The model is pure and functional. Tables are datatypes:

- `CleanWide.WideTable`, `CleanWide.LongTable`, `CleanFlat.FlatTable`.
- The cleaners are total functions returning a `Result`, whose error cases stand for the
  exceptions the pandas code raises.
- `Pipeline.Main` takes the two loaders as parameters. It records which files it loaded
  and what it saved, next to the cleaned table or the error.

Modules:

- `Wrappers`: `Option` and `Result`.
- `Seqs`: filtering, mapping, and the order-preservation lemmas that stand for pandas'
  boolean masks.
- `Text`: `str.split` / `','.join` and Python's `int()` on strings.
- `Extract`: the regular-expression extraction.
- `Regions`: the enumeration.
- `CleanWide`: `CleanTSV`.
- `CleanFlat`: `CleanJSON`.
- `Pipeline`: `main`.
- `Fixtures` and `FlatFixtures`: the examples the package's tests check.

Behaviour of the code that the model follows and that is easy to miss:

- Dropping the flag columns is not tolerant. `drop` is called without `errors='ignore'`,
  so a flat table that lacks `flag` or `flag_detail` is an error (`MissingColumns`).
- Key cells need not all split into as many parts as the header. `str.split(expand=True)`
  pads shorter cells with missing values. The error comes only when the widest cell's
  part count differs from the header's. A table without rows has width 0, so it is
  always this error.
- The value pattern does not require a fractional digit. `[0-9]+\.?[0-9]` matches `79`
  and `100` as well as `79.6`. A single digit such as `5` does not match.
- Two checks fire at different steps depending on the key count.
  - With one or three key names, the missing region column is an error before the years
    convert. With one name, the split is written back into the key column itself, which
    line 45 then drops, so `melt` raises a `KeyError` for that name. With three, column 3
    is `year`, which is renamed away, so `astype({'year': int})` fails.
  - With two key names, the error comes only after the years convert, when the `value`
    column is found missing.
- A year column whose label equals a key field name is overwritten by that key field
  when the split is assigned, so `melt` does not unpivot it and its label is not
  converted. `CleanWide.Unpivoted` is the table restricted to the unpivoted year columns.
- When no year column is unpivoted (there are none, or every one was overwritten), the
  `value` column is an empty numeric column and `.str.extract` raises. The model reports
  `NothingUnpivoted`.
- An unsupported suffix fails before anything is loaded or saved. In the code this is
  an unbound local, not a dedicated error class. The model names it `UnsupportedFormat`.

## Model

| member | source | states |
|---|---|---|
| Text.Split | life_expectancy/cleaning.py:37 | splitting on `,` gives at least one part, no part contains `,`, and the parts joined with `,` are the original text |
| Text.SplitJoin | life_expectancy/cleaning.py:37 | round trip: splitting the `,`-join of comma-free parts gives back exactly those parts |
| Text.ParseShowInt | life_expectancy/cleaning.py:60 | `int()` of the decimal numeral of any integer, surrounded by any white space `int()` skips (`Text.IsSpace`), gives that integer back |
| Text.ShowNatValue | life_expectancy/cleaning.py:60 | the digits the numeral of `n` consists of have value `n` (decimal rendering and digit parsing are inverse) |
| Text.SeparatorRejected | life_expectancy/cleaning.py:60 | `int()` refuses a text that starts or ends with one of the separators U+001C to U+001F, which it does not skip as white space |
| Text.ParseInt | life_expectancy/cleaning.py:60 | `int()` on text: the white space `int()` skips (`Text.IsSpace`) around an optional sign and decimal digits; an accepted text holds a digit, and `Text.ParseIntSound` / `Text.ParseIntComplete` characterise it |
| Text.ParseIntSound | life_expectancy/cleaning.py:60 | an accepted text is white space, an optional sign, one or more ASCII digits and white space (`Text.Spells`), and its value is what the sign and digits denote; any other text is rejected |
| Text.ParseIntComplete | life_expectancy/cleaning.py:60 | every text of that shape is accepted, with that value (leading zeros and `+` included) |
| Extract.RunLength | life_expectancy/cleaning.py:64 | the run of digits from `i` stays in the text, consists of digits and cannot be extended |
| Extract.MatchAt | life_expectancy/cleaning.py:64 | a match anchored at `i` is a token of the pattern and fits in the text |
| Extract.MatchAtSound | life_expectancy/cleaning.py:64 | the match at `i` is the text at `i`, and no longer token of the pattern starts at `i` (the backtracking result is the longest) |
| Extract.MatchAtComplete | life_expectancy/cleaning.py:64 | whenever some token of the pattern starts at `i`, the matcher finds a match there at least as long |
| Extract.SearchFrom | life_expectancy/cleaning.py:64 | `re.search` from position `i`: what it finds is a token of the pattern no longer than the text; `SearchFromFinds` and `SearchFromReaches` place it at the first position with a match |
| Extract.SearchFromFinds | life_expectancy/cleaning.py:64 | the search returns the match at the first position from `i` where one exists, and none when no position matches |
| Extract.SearchFromReaches | life_expectancy/cleaning.py:64 | when position `k` is the first match at or after `i`, the search from `i` returns the match at `k` |
| Extract.ExtractToken | life_expectancy/cleaning.py:63-65 | an extracted value is a token of `[0-9]+\.?[0-9]` no longer than the cell |
| Extract.ExtractFindsLeftmostLongest | life_expectancy/cleaning.py:64 | whatever is extracted is the longest token at the leftmost position where a token starts |
| Extract.LeftmostLongestIsExtracted | life_expectancy/cleaning.py:64 | the longest token at the leftmost token position is what is extracted |
| Extract.ExtractIsLeftmostLongest | life_expectancy/cleaning.py:64 | both directions: extraction yields `t` exactly when `t` is the leftmost-longest token of the cell |
| Extract.ExtractNoneIffNoToken | life_expectancy/cleaning.py:63-70 | a cell extracts to a missing value (and its row is dropped) exactly when no substring of it is a token |
| Extract.ExtractIdempotent | life_expectancy/cleaning.py:64 | extracting from an extracted token gives the token itself |
| Extract.ExtractExamples | life_expectancy/cleaning.py:64 | `"83.2 "` gives `83.2`, `"79"` and `"100"` match whole, `"1.23"` gives `1.2`, and `"5"` and `": "` give nothing |
| Seqs.Filter | life_expectancy/cleaning.py:68-75 | a boolean mask keeps only elements satisfying the predicate and keeps every one that does |
| Seqs.Map | life_expectancy/region.py:81 | the comprehension has one element per input, each the image of the input at that position |
| Seqs.FilterKeepsOrder | life_expectancy/cleaning.py:68-75 | a mask's result is the subsequence at the kept positions, and a position is kept exactly when its element satisfies the predicate |
| Seqs.FilterAppend | life_expectancy/cleaning.py:68-75 | masking distributes over concatenation |
| Seqs.FilterFilter | life_expectancy/cleaning.py:68-75 | masking twice equals masking once with the conjunction of the two predicates |
| Seqs.FilterAlong | life_expectancy/cleaning.py:68-75 | the kept elements are in strictly increasing source positions, each with its coordinate, and every element satisfying the predicate is among them |
| Regions.FromCode | life_expectancy/region.py:8-65 | `Region(value)`: a value that decodes maps back to itself |
| Regions.CodeRoundTrip | life_expectancy/region.py:8-65 | round trip: `Region(member.value)` is the member, for every member |
| Regions.CodeInjective | life_expectancy/region.py:8-65 | distinct members have distinct values |
| Regions.DeclaredOrder | life_expectancy/region.py:8-65 | the declaration order lists all 56 members, each exactly once, at its ordinal |
| Regions.CountriesFirst | life_expectancy/region.py:10-79 | the first 48 declared members are countries and the last eight are the groupings `list_all_countries` excludes |
| Regions.CountriesKept | life_expectancy/region.py:81 | leaving out the groupings keeps exactly the first 48 declared members |
| Regions.SplitAt48 | life_expectancy/region.py:81 | a 56-element sequence whose predicate holds on the first 48 and fails on the rest filters to its first 48 |
| Regions.ListedInOrder | life_expectancy/region.py:81 | the values of the first 48 members: 48 distinct values, in declaration order, and a member's value is among them exactly when it is a country |
| Regions.ListAllCountries | life_expectancy/region.py:67-81 | 48 values, each decoding to a country, none repeated, in declaration order, and a member's value is listed exactly when it is not a grouping |
| CleanWide.SplitWidth | life_expectancy/cleaning.py:40-42 | the expanded width bounds every key's part count and is reached by some key (zero for no rows) |
| CleanWide.KeyNames | life_expectancy/cleaning.py:34-37 | the first header splits into at least one key field name |
| CleanWide.KeyNamesOfHeader | life_expectancy/cleaning.py:34-37 | the key field names contain no `,` and join back to the first header, and they are the only `,`-free names that do |
| CleanWide.ExpandKey | life_expectancy/cleaning.py:40-42 | an expanded key has one field per column: its parts in order, then missing values |
| CleanWide.ExpandedKeys | life_expectancy/cleaning.py:40-42 | every row's key is expanded to the common width |
| CleanWide.MeltedColumns | life_expectancy/cleaning.py:40-52 | the year columns `melt` unpivots, in order: exactly those whose label is not a key field name |
| CleanWide.Unpivoted | life_expectancy/cleaning.py:40-52 | restricting to the unpivoted year columns keeps the table rectangular, the rows, their keys' split width and at most the original year columns |
| CleanWide.UnpivotedAll | life_expectancy/cleaning.py:40-52 | when no year label is a key field name, every year column is unpivoted and the table is unchanged |
| CleanWide.UnpivotedYears | life_expectancy/cleaning.py:40-60 | the year conversion fails exactly when some unpivoted label does not convert, naming such a label; nothing is unpivoted exactly when every year label is a key field name |
| CleanWide.ParseYear | life_expectancy/cleaning.py:60 | a converted year label lies in the 64-bit integer range; `CleanWide.ParseYearSound` / `CleanWide.ParseYearComplete` say which labels convert |
| CleanWide.ParseYearSound | life_expectancy/cleaning.py:60 | a label that converts is a numeral (white space, optional sign, digits, white space) whose value, in the 64-bit range, is its year |
| CleanWide.ParseYearComplete | life_expectancy/cleaning.py:60 | every numeral converts to its value when that fits in 64 bits, and is rejected otherwise |
| CleanWide.StrayCharacterRejected | life_expectancy/cleaning.py:60 | a label with a character that is not a digit, not at a white-space end and not a leading sign, makes the conversion fail |
| CleanWide.ParseYearExamples | life_expectancy/cleaning.py:60 | `geo`, `20a1` and `2021.0` do not convert; ` 2021\n` and `+2021` convert to 2021 |
| CleanWide.ParseShowYear | life_expectancy/cleaning.py:60 | the numeral of any integer, with any white space `int()` skips around it, converts to that integer when it is within the 64-bit range and is rejected when it is not |
| CleanWide.ParseYears | life_expectancy/cleaning.py:60 | all year labels convert exactly when each does, and then each year is its label's value; otherwise the error names a label that does not convert |
| CleanWide.MeltOrder | life_expectancy/cleaning.py:48-52 | the unpivot visits `rows × years` cells, all in range |
| CleanWide.MeltOrderYearMajor | life_expectancy/cleaning.py:48-52 | the unpivot order is strictly year-major (all rows of one year before the next) and visits every cell |
| CleanWide.Melt | life_expectancy/cleaning.py:48-52 | the `p`-th unpivoted row carries the key of the row, the year of the column and the raw cell of the `p`-th cell in year-major order |
| CleanWide.Coerce | life_expectancy/cleaning.py:63-65 | extraction keeps the key fields and year, and the value is a token, missing exactly when the raw cell holds none |
| CleanWide.HasValue | life_expectancy/cleaning.py:68-70 | the `~isna()` mask: the observation has a value |
| CleanWide.RegionIs | life_expectancy/cleaning.py:73-75 | the `== region` mask: the fourth key field is present and equals the region |
| CleanWide.LongColumns | life_expectancy/cleaning.py:48-57 | the long table's labels are the key names with the fourth renamed `region`, followed by `year` and `value` |
| CleanWide.Observed | life_expectancy/cleaning.py:48-65 | one observation per cell, each with a key of the expanded width |
| CleanWide.Selected | life_expectancy/cleaning.py:67-75 | every kept observation has the requested region in its region field and a token as its value |
| CleanWide.ObservedInMeltOrder | life_expectancy/cleaning.py:48-65 | the `p`-th observation is the converted cell at the `p`-th position of the year-major order |
| CleanWide.SelectedIsOneMask | life_expectancy/cleaning.py:67-75 | the missing-value mask followed by the region mask equals one mask with both conditions, and keeps the positions that satisfy it |
| CleanWide.SelectedAreKeptCells | life_expectancy/cleaning.py:48-75 | each kept observation comes from a distinct cell, the cells are in year-major order, and a cell is among them exactly when it is kept |
| CleanWide.Clean | life_expectancy/cleaning.py:22-77 | fails exactly on a key-width mismatch, fewer than four key fields, an unpivoted year label that does not convert, or no unpivoted year column, naming the cause (one or three names fail before the years convert; with two, a bad unpivoted year is reported, and only otherwise the missing region column); on success gives the renamed labels, at most one row per unpivoted cell, every row in the region with a token value |
| CleanWide.CleanTwoNames | life_expectancy/cleaning.py:55-64 | with two key fields the fourth column is `value`, renamed to `region`: a year label that does not convert is reported first, and only when all convert does the missing `value` column fail the run |
| CleanWide.CleanRowsAreKeptCells | life_expectancy/cleaning.py:22-77 | on success the output rows are, in year-major order, exactly the observations of the unpivoted cells with a token in the requested region: each carries its row's expanded key, its column's year and its cell's token |
| CleanWide.CleanKeysAreKeyParts | life_expectancy/cleaning.py:34-57 | when every key splits into as many parts as the header, each output row's key fields are its source row's parts, and the region part is the requested region |
| CleanFlat.MissingLabels | life_expectancy/cleaning.py:94-95 | the labels to drop that the table lacks, exactly |
| Seqs.Pick | life_expectancy/cleaning.py:95 | the row restricted to the given positions, in their order |
| CleanFlat.Drop | life_expectancy/cleaning.py:94-95 | dropping keeps the table rectangular and leaves no `flag` or `flag_detail` column |
| CleanFlat.Rename | life_expectancy/cleaning.py:98-99 | renaming changes each label by the rename map and leaves the rows untouched |
| CleanFlat.Renamed | life_expectancy/cleaning.py:98 | the rename map: `country` becomes `region`, `life_expectancy` becomes `value`, no label keeps either old name, and other labels stay |
| CleanFlat.IndexOf | life_expectancy/cleaning.py:102 | the first position holding the label |
| CleanFlat.InRegion | life_expectancy/cleaning.py:102 | the `== region` mask on a record: its region cell is the region as text |
| CleanFlat.Reshape | life_expectancy/cleaning.py:94-99 | drop then rename keeps the table rectangular and every row, and leaves none of `flag`, `flag_detail`, `country`, `life_expectancy` as a label |
| CleanFlat.SelectRegion | life_expectancy/cleaning.py:102 | the region mask keeps the labels and only rows whose region cell is the requested region |
| CleanFlat.Clean | life_expectancy/cleaning.py:82-104 | fails exactly when a flag column is missing (naming the missing labels) or no column becomes `region`; on success no flag or renamed-away label remains and every row's region cell is the requested region |
| CleanFlat.DropColumns | life_expectancy/cleaning.py:94-95 | the dropped table keeps exactly the other columns, in order, and each row is its source row at those positions |
| CleanFlat.ReshapeColumns | life_expectancy/cleaning.py:94-99 | after drop and rename, the columns are the renamed retained source columns, in order |
| CleanFlat.ReshapeRows | life_expectancy/cleaning.py:94-99 | after drop and rename, each row is its source row at the retained positions |
| CleanFlat.DropKeepsRegion | life_expectancy/cleaning.py:94-102 | a `region` column exists after reshaping exactly when some source column is renamed to it |
| CleanFlat.RegionSurvives | life_expectancy/cleaning.py:94-102 | a `region` label survives the drop exactly when some source column is renamed to `region` |
| CleanFlat.SelectRegionRows | life_expectancy/cleaning.py:102 | the region mask keeps, in order, exactly the rows whose region cell is the requested region |
| CleanFlat.CleanIsSelection | life_expectancy/cleaning.py:94-104 | a successful clean is the region selection of the reshaped table |
| CleanFlat.CleanKeepsRegionRows | life_expectancy/cleaning.py:82-104 | on success the output columns are the renamed retained columns in order, and the output rows are, in order, exactly the source rows of the requested region projected onto them |
| Pipeline.FormatTag | life_expectancy/main.py:41 | the tag is a `.`-free suffix of the name, preceded by `.` unless it is the whole name |
| Pipeline.FormatTagAfterDot | life_expectancy/main.py:41 | the tag of `stem.tag` is `tag` for any `.`-free `tag` |
| Pipeline.FormatTagNoDot | life_expectancy/main.py:41 | a name without `.` is its own tag |
| Pipeline.SelectStrategy | life_expectancy/main.py:43-49 | `zip` selects the JSON pair, `tsv` the TSV pair, and those two only |
| Pipeline.DispatchExamples | life_expectancy/main.py:41-49 | the test file names select their strategies; `archive.tar.gz` and `data.TSV` select none |
| Pipeline.LoadAndClean | life_expectancy/main.py:51-56 | a failed load is the outcome, with its message, and the cleaner is not run; a failed clean is the outcome, wrapped; otherwise the cleaned table |
| Pipeline.Main | life_expectancy/main.py:31-58 | an unsupported tag fails with nothing loaded or saved; otherwise the named file is loaded, a failed load or clean is the run's error (naming the load message or the cleaner's error) with nothing saved, and a successful clean is returned and saved, once, to `pt_life_expectancy.csv` |
| Fixtures.WideSampleYears | life_expectancy/tests/fixtures/sample_data.py:12-16 | the sample's year labels convert to 2021, 2022 and 2023 |
| Fixtures.WideSampleKept | life_expectancy/tests/fixtures/sample_data.py:12-16 | in the sample, a cell is kept for `PT` exactly when it is in the third row |
| Fixtures.CleanOneRow | life_expectancy/cleaning.py:48-75 | when exactly one row's unpivoted cells are kept, the output is that row's observations, one per unpivoted year in column order |
| Fixtures.WideSampleCleansToPortugal | life_expectancy/tests/test_cleaning.py:8-16 | the sample TSV table cleans, for `PT`, to the three Portuguese rows of 2021–2023 with value `79.6` |
| Fixtures.MainOnWideSample | life_expectancy/tests/test_main.py:9-18 | `main` on a `.tsv` name whose loader yields the sample loads it once, returns the expected table and saves it |
| FlatFixtures.FlatSampleCleansToPortugal | life_expectancy/cleaning.py:82-104 | a two-record flat table (one Albanian, one Portuguese) cleans, for `PT`, to the Portuguese record without flag columns and with `region`/`value` labels |
| FlatFixtures.MainOnFlatSample | life_expectancy/tests/test_main.py:20-29 | `main` on a `.zip` name whose loader yields the flat sample loads it once, returns the expected table and saves it |

## Left out

- Loading (`loading.py`): reading the TSV file and unzipping and parsing the JSON archive
  are I/O. The loaders are parameters of `Pipeline.Main`. `Pipeline.LoadersWellFormed`
  assumes that they yield rectangular tables. It also assumes their labels are not
  duplicated: a TSV table's key names are `WellLabelled`, and a JSON table is
  `RegionLabelledOnce` after renaming. A real file with duplicate labels is therefore
  ruled out by hypothesis.
- Saving (`main.save_data`, `DataFrame.to_csv`) is file output. A run records the
  `(file name, table)` pair it would write.
- The `DATA_DIR` / `OUTPUT_FILE_PATH` locations and the `__main__` argument parsing are
  process environment and command line.
- Float conversion (`astype('float')`, JSON numbers): values are kept as the extracted
  token text, and JSON numbers as their numerals. Floating point is out of scope.
- pandas dtypes, the index and `reset_index`: a table is a sequence of rows.
- CleanWide.Clean: does not model duplicate column labels. It requires the key names to be
  distinct, none of them `year` or `value`, and none but the fourth `region`
  (`WellLabelled`). Tables with such key names are excluded by that precondition, and the
  model says nothing about them. A year label equal to a key field name is modelled: that
  column is not unpivoted.
- CleanWide.Clean: errors are named by cause, not by Python exception class
  (`IndexError`, `KeyError`, `ValueError`, `AttributeError`).
- CleanFlat.Clean: does not model duplicate labels. It requires at most one column
  to be labelled `region` after renaming (`RegionLabelledOnce`).
- CleanWide.ParseYear: does not model Python's `int()` on underscores between digits
  (`2_021`) or on non-ASCII digits. It accepts ASCII digits with an optional sign and
  surrounding white space: the ASCII space and `\t` to `\r`, and the Unicode white space
  above U+007F such as U+00A0. The separators U+001C to U+001F are not skipped
  (`Text.SeparatorRejected`).
- CleanWide.CleanKeysAreKeyParts: holds only when every key has as many parts as the
  header. Shorter keys are padded with missing values, which `CleanWide.ExpandKey` states.
- In-place mutation: `CleanTSV.clean_data` writes the split key columns into the
  caller's table and drops its first column in place (`cleaning.py:40-45`), even when a
  later step raises. The model is pure; the input table is unchanged.
- The default argument `region='PT'` of `CleanTSV.clean_data`: `main` always passes a
  region, and the model's cleaners take it explicitly.
- `CleanData`, the abstract base class, has no behaviour of its own.
- `tests/test_load.py` tests loaders that the model takes as parameters.
- `tests/conftest.py` reads an expected-output CSV that is not part of this model.
- The JSON test fixture is not part of this model. `FlatFixtures` builds a two-record table
  with the same columns instead.

=== FILE: clean_flat.dfy ===
/** `CleanJSON.clean_data`: the records of the zipped JSON export already come one
    observation per row; the cleaner drops the two annotation columns, gives the
    country and value columns their canonical names and keeps the requested region. */
module CleanFlat {
  import opened Wrappers
  import opened Seqs

  /** A cell of the loaded JSON records: text, a number (kept as its numeral, since no
      arithmetic is done on it) or null. */
  datatype Cell = Str(text: string) | Number(numeral: string) | Null

  /** The records as a table: column labels and one row of cells per record. */
  datatype FlatTable = FlatTable(columns: seq<string>, rows: seq<seq<Cell>>)

  /** Every row has one cell per column, as in any data frame. */
  predicate Rectangular(t: FlatTable) {
    forall i :: 0 <= i < |t.rows| ==> |t.rows[i]| == |t.columns|
  }

  /** The exceptions the cleaner raises. */
  datatype FlatError =
    | MissingColumns(labels: seq<string>) // `drop` names columns the table lacks
    | NoRegionColumn                      // no column is called `region` after the rename

  /** The annotation columns `drop` removes. */
  const DroppedColumns: seq<string> := ["flag", "flag_detail"]

  predicate Retained(name: string) {
    name !in DroppedColumns
  }

  /** The rename `{'country': 'region', 'life_expectancy': 'value'}`: no label keeps
      an old name, and a label that is neither old name stays. */
  function Renamed(name: string): (r: string)
    ensures r != "country" && r != "life_expectancy"
    ensures name != "country" && name != "life_expectancy" ==> r == name
    ensures r == "region" <==> name == "country" || name == "region"
    ensures r == "value" <==> name == "life_expectancy" || name == "value"
  {
    if name == "country" then "region"
    else if name == "life_expectancy" then "value"
    else name
  }

  /** At most one column ends up labelled `region`, so `df['region']` is one column. */
  predicate RegionLabelledOnce(columns: seq<string>) {
    forall a, b :: 0 <= a < b < |columns| ==> Renamed(columns[a]) != "region" || Renamed(columns[b]) != "region"
  }

  /** The labels `drop` is asked for that the table lacks, in the order asked. */
  function MissingLabels(columns: seq<string>): (missing: seq<string>)
    ensures forall l :: l in missing <==> l in DroppedColumns && l !in columns
  {
    Filter(DroppedColumns, (l: string) => l !in columns)
  }

  /** `drop(columns=['flag', 'flag_detail'])` once both are known to be present: every
      column with either name goes, the others stay in order. */
  function Drop(t: FlatTable): (d: FlatTable)
    requires Rectangular(t)
    ensures Rectangular(d)
    ensures forall k :: 0 <= k < |d.columns| ==> Retained(d.columns[k])
  {
    var idx := KeptPositions(t.columns, Retained);
    FilterKeepsOrder(t.columns, Retained);
    FlatTable(Filter(t.columns, Retained),
              seq(|t.rows|, i requires 0 <= i < |t.rows| => Pick(t.rows[i], idx)))
  }

  /** `rename(columns=...)`: labels change, cells do not. */
  function Rename(t: FlatTable): (r: FlatTable)
    ensures r.rows == t.rows
    ensures |r.columns| == |t.columns|
    ensures forall k :: 0 <= k < |t.columns| ==> r.columns[k] == Renamed(t.columns[k])
  {
    FlatTable(Map(t.columns, Renamed), t.rows)
  }

  /** The first position of `x` in `s`. */
  function IndexOf(s: seq<string>, x: string): (i: nat)
    requires x in s
    ensures i < |s| && s[i] == x
    ensures forall j :: 0 <= j < i ==> s[j] != x
  {
    if s[0] == x then 0 else 1 + IndexOf(s[1..], x)
  }

  /** The mask `df['region'] == region` on one row, with the region in column `c`. */
  function InRegion(c: nat, region: string): seq<Cell> -> bool {
    (row: seq<Cell>) => c < |row| && row[c] == Str(region)
  }

  /** The error conditions of `Clean`: an annotation column is missing, or no column
      is called `region` after the rename. */
  predicate Fails(t: FlatTable) {
    || "flag" !in t.columns
    || "flag_detail" !in t.columns
    || forall a :: 0 <= a < |t.columns| ==> Renamed(t.columns[a]) != "region"
  }

  /** The table after `drop` and `rename`: the annotation columns are gone and no
      column keeps an old name. */
  function Reshape(t: FlatTable): (r: FlatTable)
    requires Rectangular(t)
    ensures Rectangular(r)
    ensures |r.rows| == |t.rows|
    ensures forall k :: 0 <= k < |r.columns| ==>
      r.columns[k] !in ["flag", "flag_detail", "country", "life_expectancy"]
  {
    var d := Drop(t);
    var r := Rename(d);
    assert forall k :: 0 <= k < |r.columns| ==> r.columns[k] == Renamed(d.columns[k]) && Retained(d.columns[k]);
    r
  }

  /** `df[df['region'] == region]` on a reshaped table. */
  function SelectRegion(t: FlatTable, region: string): (r: FlatTable)
    requires Rectangular(t)
    requires "region" in t.columns
    ensures r.columns == t.columns
    ensures Rectangular(r)
    ensures |r.rows| <= |t.rows|
    ensures forall i :: 0 <= i < |r.rows| ==> r.rows[i][IndexOf(t.columns, "region")] == Str(region)
  {
    var c := IndexOf(t.columns, "region");
    var kept := Filter(t.rows, InRegion(c, region));
    assert forall i :: 0 <= i < |kept| ==> kept[i] in t.rows && InRegion(c, region)(kept[i]);
    FlatTable(t.columns, kept)
  }

  /** `CleanJSON.clean_data(t, region)`. */
  function Clean(t: FlatTable, region: string): (r: Result<FlatTable, FlatError>)
    requires Rectangular(t)
    requires RegionLabelledOnce(t.columns)
    ensures r.Failure? <==> Fails(t)
    ensures r.Failure? ==>
      (r.error.MissingColumns? <==> "flag" !in t.columns || "flag_detail" !in t.columns)
    ensures r.Failure? && r.error.MissingColumns? ==>
      |r.error.labels| > 0 && forall l :: l in r.error.labels <==> l in DroppedColumns && l !in t.columns
    ensures r.Success? ==>
      && Rectangular(r.value)
      && (forall k :: 0 <= k < |r.value.columns| ==>
            r.value.columns[k] !in ["flag", "flag_detail", "country", "life_expectancy"])
      && (exists c :: 0 <= c < |r.value.columns| && r.value.columns[c] == "region" &&
            forall i :: 0 <= i < |r.value.rows| ==> r.value.rows[i][c] == Str(region))
    ensures r.Success? ==> |r.value.rows| <= |t.rows|
  {
    var missing := MissingLabels(t.columns);
    if |missing| > 0 then Failure(MissingColumns(missing))
    else
      var reshaped := Reshape(t);
      DropKeepsRegion(t);
      if "region" !in reshaped.columns then Failure(NoRegionColumn)
      else
        var r := SelectRegion(reshaped, region);
        assert r.columns[IndexOf(reshaped.columns, "region")] == "region";
        Success(r)
  }

  /** The kept columns are the retained ones, in order: `idx[k]` is where kept column
      `k` was. */
  lemma DropColumns(t: FlatTable) returns (idx: seq<nat>)
    requires Rectangular(t)
    ensures idx == KeptPositions(t.columns, Retained)
    ensures |idx| == |Drop(t).columns|
    ensures StrictlyIncreasing(idx)
    ensures forall k :: 0 <= k < |idx| ==> idx[k] < |t.columns| && Drop(t).columns[k] == t.columns[idx[k]]
    ensures forall a :: 0 <= a < |t.columns| ==> (a in idx <==> Retained(t.columns[a]))
    ensures forall i :: 0 <= i < |t.rows| ==> Drop(t).rows[i] == Pick(t.rows[i], idx)
  {
    FilterKeepsOrder(t.columns, Retained);
    idx := KeptPositions(t.columns, Retained);
  }

  /** The reshaped columns are the retained ones under their new names, in order. */
  lemma ReshapeColumns(t: FlatTable) returns (idx: seq<nat>)
    requires Rectangular(t)
    ensures idx == KeptPositions(t.columns, Retained)
    ensures |idx| == |Reshape(t).columns|
    ensures StrictlyIncreasing(idx)
    ensures forall k :: 0 <= k < |idx| ==>
      idx[k] < |t.columns| && Reshape(t).columns[k] == Renamed(t.columns[idx[k]])
    ensures forall a :: 0 <= a < |t.columns| ==> (a in idx <==> Retained(t.columns[a]))
  {
    idx := DropColumns(t);
  }

  /** A column renamed to `region` survives the drop, so after drop and rename some
      column is `region` exactly when some input column becomes `region`. */
  lemma DropKeepsRegion(t: FlatTable)
    requires Rectangular(t)
    ensures "region" in Reshape(t).columns <==>
      exists a :: 0 <= a < |t.columns| && Renamed(t.columns[a]) == "region"
  {
    var idx := ReshapeColumns(t);
    RegionSurvives(t.columns, Reshape(t).columns, idx);
  }

  lemma RegionSurvives(columns: seq<string>, kept: seq<string>, idx: seq<nat>)
    requires |idx| == |kept|
    requires forall k :: 0 <= k < |idx| ==> idx[k] < |columns| && kept[k] == Renamed(columns[idx[k]])
    requires forall a :: 0 <= a < |columns| ==> (a in idx <==> Retained(columns[a]))
    ensures "region" in kept <==> exists a :: 0 <= a < |columns| && Renamed(columns[a]) == "region"
  {
    if "region" in kept {
      var k :| 0 <= k < |kept| && kept[k] == "region";
      assert Renamed(columns[idx[k]]) == "region";
    }
    if exists a :: 0 <= a < |columns| && Renamed(columns[a]) == "region" {
      var a :| 0 <= a < |columns| && Renamed(columns[a]) == "region";
      assert Retained(columns[a]);
      var k :| 0 <= k < |idx| && idx[k] == a;
      assert kept[k] == "region";
    }
  }

  /** `SelectRegion` keeps exactly the rows whose region cell is `region`, in order. */
  lemma SelectRegionRows(t: FlatTable, region: string) returns (pos: seq<nat>)
    requires Rectangular(t)
    requires "region" in t.columns
    ensures |pos| == |SelectRegion(t, region).rows|
    ensures StrictlyIncreasing(pos)
    ensures forall k :: 0 <= k < |pos| ==> pos[k] < |t.rows| && SelectRegion(t, region).rows[k] == t.rows[pos[k]]
    ensures forall i :: 0 <= i < |t.rows| ==>
      (i in pos <==> t.rows[i][IndexOf(t.columns, "region")] == Str(region))
  {
    var c := IndexOf(t.columns, "region");
    FilterKeepsOrder(t.rows, InRegion(c, region));
    pos := KeptPositions(t.rows, InRegion(c, region));
    forall i | 0 <= i < |t.rows|
      ensures InRegion(c, region)(t.rows[i]) <==> t.rows[i][c] == Str(region)
    {
    }
  }

  /** A successful clean is the region selection of the reshaped table. */
  lemma CleanIsSelection(t: FlatTable, region: string, out: FlatTable)
    requires Rectangular(t)
    requires RegionLabelledOnce(t.columns)
    requires Clean(t, region) == Success(out)
    ensures "region" in Reshape(t).columns
    ensures out == SelectRegion(Reshape(t), region)
  {
    DropKeepsRegion(t);
  }

  /** What the cleaned table holds. Its columns are the input's columns other than
      `flag` and `flag_detail`, in order, renamed: `idx[k]` is where column `k` came
      from. Its rows are the input rows whose region cell (the column called `country`
      or `region`) is `region`, in input order, each restricted to those columns with
      its cells unchanged: `pos[k]` is the input row of output row `k`. */
  lemma CleanKeepsRegionRows(t: FlatTable, region: string, out: FlatTable) returns (idx: seq<nat>, pos: seq<nat>)
    requires Rectangular(t)
    requires RegionLabelledOnce(t.columns)
    requires Clean(t, region) == Success(out)
    ensures |idx| == |out.columns|
    ensures StrictlyIncreasing(idx)
    ensures forall k :: 0 <= k < |idx| ==> idx[k] < |t.columns| && out.columns[k] == Renamed(t.columns[idx[k]])
    ensures forall a :: 0 <= a < |t.columns| ==> (a in idx <==> Retained(t.columns[a]))
    ensures forall a, i :: 0 <= a < |t.columns| && Renamed(t.columns[a]) == "region" && 0 <= i < |t.rows| ==>
      (i in pos <==> InRegion(a, region)(t.rows[i]))
    ensures |pos| == |out.rows|
    ensures StrictlyIncreasing(pos)
    ensures forall k :: 0 <= k < |pos| ==> pos[k] < |t.rows| && ProjectionOf(out.rows[k], t.rows[pos[k]], idx)
  {
    CleanIsSelection(t, region, out);
    var reshaped := Reshape(t);
    idx := ReshapeColumns(t);
    ReshapeRows(t, idx);
    pos := SelectRegionRows(reshaped, region);
    RegionCellMoves(t, reshaped, idx, IndexOf(reshaped.columns, "region"), pos, region);
    forall k | 0 <= k < |pos| ensures ProjectionOf(out.rows[k], t.rows[pos[k]], idx) {
      PickIsProjection(t.rows[pos[k]], idx);
    }
  }

  /** `r` is `row` restricted to the positions `idx`, in that order. */
  predicate ProjectionOf(r: seq<Cell>, row: seq<Cell>, idx: seq<nat>) {
    && |r| == |idx|
    && forall k :: 0 <= k < |idx| ==> idx[k] < |row| && r[k] == row[idx[k]]
  }

  lemma PickIsProjection(row: seq<Cell>, idx: seq<nat>)
    requires forall k :: 0 <= k < |idx| ==> idx[k] < |row|
    ensures ProjectionOf(Pick(row, idx), row, idx)
  {
  }

  /** Reshaping keeps every row, restricted to the retained columns. */
  lemma ReshapeRows(t: FlatTable, idx: seq<nat>)
    requires Rectangular(t)
    requires idx == KeptPositions(t.columns, Retained)
    ensures |Reshape(t).rows| == |t.rows|
    ensures forall i :: 0 <= i < |t.rows| ==> Reshape(t).rows[i] == Pick(t.rows[i], idx)
  {
    var _ := DropColumns(t);
  }

  /** The region cell of a reshaped row is the cell of the one input column renamed
      to `region`. */
  lemma RegionCellMoves(t: FlatTable, reshaped: FlatTable, idx: seq<nat>, c: nat, pos: seq<nat>, region: string)
    requires Rectangular(t)
    requires RegionLabelledOnce(t.columns)
    requires |idx| == |reshaped.columns|
    requires forall k :: 0 <= k < |idx| ==> idx[k] < |t.columns| && reshaped.columns[k] == Renamed(t.columns[idx[k]])
    requires |reshaped.rows| == |t.rows|
    requires forall i :: 0 <= i < |t.rows| ==> reshaped.rows[i] == Pick(t.rows[i], idx)
    requires Rectangular(reshaped)
    requires c < |reshaped.columns| && reshaped.columns[c] == "region"
    requires forall i :: 0 <= i < |reshaped.rows| ==> (i in pos <==> reshaped.rows[i][c] == Str(region))
    ensures forall a, i :: 0 <= a < |t.columns| && Renamed(t.columns[a]) == "region" && 0 <= i < |t.rows| ==>
      (i in pos <==> t.rows[i][a] == Str(region))
  {
    forall a, i | 0 <= a < |t.columns| && Renamed(t.columns[a]) == "region" && 0 <= i < |t.rows|
      ensures i in pos <==> t.rows[i][a] == Str(region)
    {
      assert Renamed(t.columns[idx[c]]) == "region";
      assert idx[c] == a;
      assert reshaped.rows[i][c] == t.rows[i][a];
    }
  }
}

=== FILE: clean_wide.dfy ===
/** `CleanTSV.clean_data`: reshapes the wide tab-separated table (one row per key
    combination, one column per year) into long form, one observation per
    (key combination, year), keeping the observations that carry a value and belong
    to the requested region. */
module CleanWide {
  import opened Wrappers
  import opened Seqs
  import Text
  import Extract

  /** One entity row of the raw table: its composite key cell ("YR,F,Y1,PT") and one raw
      cell per year column. */
  datatype WideRow = WideRow(key: string, cells: seq<string>)

  /** The raw table as the tab-separated loader yields it: the header of the composite
      first column ("unit,sex,age,geo\time"), the remaining headers (one per year) and
      the rows. */
  datatype WideTable = WideTable(keyHeader: string, yearHeaders: seq<string>, rows: seq<WideRow>)

  /** Every row has one cell per year column, as in any data frame. */
  predicate Rectangular(t: WideTable) {
    forall i :: 0 <= i < |t.rows| ==> |t.rows[i].cells| == |t.yearHeaders|
  }

  /** One row of the long table: the key fields (missing where a key cell has fewer parts
      than the widest one), the year and the extracted value. */
  datatype Observation = Observation(keys: seq<Option<string>>, year: int, value: Option<string>)

  datatype LongTable = LongTable(columns: seq<string>, rows: seq<Observation>)

  /** The exceptions the cleaner raises on a table of the wrong shape. */
  datatype WideError =
    | KeyWidthMismatch(names: nat, width: nat) // the split key cells are not as wide as the header
    | NoRegionColumn(names: nat)                // fewer than four key fields: column 3 is not a key field
    | BadYear(header: string)                   // a year header that is not a 64-bit integer
    | NothingUnpivoted                          // no year column is unpivoted, so `value` holds no text

  const KeySeparator: char := ','
  /** The key field renamed to `region`: column 3 of the unpivoted table. */
  const RegionPosition: nat := 3
  const Int64Min: int := -0x8000_0000_0000_0000
  const Int64Max: int := 0x7FFF_FFFF_FFFF_FFFF

  /** The key field names: the first header split on ','. There is at least one. */
  function KeyNames(t: WideTable): (names: seq<string>)
    ensures |names| >= 1
  {
    Text.Split(t.keyHeader, KeySeparator)
  }

  /** The key field names contain no ',', and joined with ',' they give back the first
      header; any such list of names is the one the header splits into. */
  lemma KeyNamesOfHeader(t: WideTable, names: seq<string>)
    requires |names| >= 1
    requires forall a :: 0 <= a < |names| ==> KeySeparator !in names[a]
    ensures forall a :: 0 <= a < |KeyNames(t)| ==> KeySeparator !in KeyNames(t)[a]
    ensures Text.Join(KeyNames(t), KeySeparator) == t.keyHeader
    ensures KeyNames(t) == names <==> Text.Join(names, KeySeparator) == t.keyHeader
  {
    if Text.Join(names, KeySeparator) == t.keyHeader {
      Text.SplitJoin(names, KeySeparator);
    }
  }

  function KeyParts(cell: string): seq<string> {
    Text.Split(cell, KeySeparator)
  }

  /** The number of columns `str.split(',', expand=True)` produces: the largest number of
      parts of any key cell, and none for a table without rows. */
  function SplitWidth(rows: seq<WideRow>): (w: nat)
    ensures forall i :: 0 <= i < |rows| ==> |KeyParts(rows[i].key)| <= w
    ensures |rows| > 0 ==> exists i :: 0 <= i < |rows| && |KeyParts(rows[i].key)| == w
    ensures |rows| == 0 ==> w == 0
    decreases |rows|
  {
    if |rows| == 0 then 0
    else
      var w := SplitWidth(rows[..|rows| - 1]);
      var last := |KeyParts(rows[|rows| - 1].key)|;
      assert forall i :: 0 <= i < |rows| - 1 ==> rows[..|rows| - 1][i] == rows[i];
      if last > w then last else w
  }

  /** A key cell expanded to `width` fields: its parts, then missing values. */
  function ExpandKey(cell: string, width: nat): (fields: seq<Option<string>>)
    requires |KeyParts(cell)| <= width
    ensures |fields| == width
    ensures forall f :: 0 <= f < |KeyParts(cell)| ==> fields[f] == Some(KeyParts(cell)[f])
    ensures forall f :: |KeyParts(cell)| <= f < width ==> fields[f] == None
  {
    var parts := KeyParts(cell);
    seq(width, f requires 0 <= f < width => if f < |parts| then Some(parts[f]) else None)
  }

  /** `astype({'year': int})` on one year header: Python's `int()`, into a 64-bit integer. */
  function ParseYear(header: string): (r: Option<int>)
    ensures r.Some? ==> Int64Min <= r.value <= Int64Max
  {
    match Text.ParseInt(header)
    case Some(n) => if Int64Min <= n <= Int64Max then Some(n) else None
    case None => None
  }

  /** Only a numeral converts: a year header that converts is white space, an optional
      sign, digits and white space, and its year is what they denote. A header such as
      "geo", "20a1" or "2021.0" does not convert. */
  lemma ParseYearSound(header: string)
    ensures ParseYear(header).Some? ==>
      && Int64Min <= ParseYear(header).value <= Int64Max
      && exists pre, sign, ds, post :: Text.Spells(header, pre, sign, ds, post) && ParseYear(header).value == Text.SignedValue(sign, ds)
  {
    Text.ParseIntSound(header);
  }

  /** Headers that are not numerals do not convert; padded and signed numerals do. */
  lemma ParseYearExamples()
    ensures ParseYear("geo") == None
    ensures ParseYear("20a1") == None
    ensures ParseYear("2021.0") == None
    ensures ParseYear(" 2021\n") == Some(2021)
    ensures ParseYear("+2021") == Some(2021)
  {
    StrayCharacterRejected("geo", 0);
    StrayCharacterRejected("20a1", 2);
    StrayCharacterRejected("2021.0", 4);
    NumeralYears();
  }

  /** A header with no white space at its ends and no sign in front does not convert
      when any of its characters is not a digit. */
  lemma StrayCharacterRejected(header: string, k: nat)
    requires |header| > 0 && !Text.IsSpace(header[0]) && !Text.IsSpace(header[|header| - 1])
    requires header[0] != '-' && header[0] != '+'
    requires k < |header| && !Text.IsDigit(header[k])
    ensures ParseYear(header) == None
  {
    Text.StripUnpadded(header);
  }

  /** The numeral 2021 converts with white space around it or a `+` in front. */
  lemma NumeralYears()
    ensures ParseYear(" 2021\n") == Some(2021)
    ensures ParseYear("+2021") == Some(2021)
  {
    TwentyTwentyOne();
    assert " 2021\n" == " " + "" + "2021" + "\n";
    ParseYearComplete(" ", "", "2021", "\n");
    assert "+2021" == "" + "+" + "2021" + "";
    ParseYearComplete("", "+", "2021", "");
  }

  lemma TwentyTwentyOne()
    ensures Text.AllDigits("2021") && Text.DigitsValue("2021") == 2021
  {
    assert "2021"[..3] == "202" && "202"[..2] == "20" && "20"[..1] == "2" && "2"[..0] == "";
  }

  /** Every numeral converts, when what it denotes fits in 64 bits. */
  lemma ParseYearComplete(pre: string, sign: string, ds: string, post: string)
    requires Text.IsNumeral(pre, sign, ds, post)
    ensures var n := Text.SignedValue(sign, ds);
      ParseYear(pre + sign + ds + post) == (if Int64Min <= n <= Int64Max then Some(n) else None)
  {
    Text.ParseIntComplete(pre, sign, ds, post);
  }

  /** `int()` reads back the numeral of any 64-bit integer, whatever white space
      surrounds it, and a numeral outside the 64-bit range does not convert. */
  lemma ParseShowYear(n: int, pre: string, post: string)
    requires Text.AllSpace(pre) && Text.AllSpace(post)
    ensures ParseYear(pre + Text.ShowInt(n) + post) == (if Int64Min <= n <= Int64Max then Some(n) else None)
  {
    Text.ParseShowInt(n, pre, post);
  }

  /** The years of all year headers, or the first header that does not convert. */
  function ParseYears(headers: seq<string>): (r: Result<seq<int>, WideError>)
    ensures r.Success? <==> forall j :: 0 <= j < |headers| ==> ParseYear(headers[j]).Some?
    ensures r.Success? ==>
      && |r.value| == |headers|
      && forall j :: 0 <= j < |headers| ==> Some(r.value[j]) == ParseYear(headers[j])
    ensures r.Failure? ==>
      exists j :: 0 <= j < |headers| && ParseYear(headers[j]).None? && r.error == BadYear(headers[j])
    decreases |headers|
  {
    if |headers| == 0 then Success([])
    else
      match ParseYear(headers[0])
      case None => Failure(BadYear(headers[0]))
      case Some(y) =>
        match ParseYears(headers[1..])
        case Failure(e) => Failure(e)
        case Success(ys) => Success([y] + ys)
  }

  /** Cell coordinates (row, year column). */
  type Coord = (nat, nat)

  /** The order `melt` visits cells in: all rows of the first year column, then all rows
      of the next, and so on. */
  predicate YearMajorBefore(a: Coord, b: Coord) {
    a.1 < b.1 || (a.1 == b.1 && a.0 < b.0)
  }

  /** The cells of an `n`-row table with `m` year columns, in the order `melt` stacks them. */
  function MeltOrder(n: nat, m: nat): (order: seq<Coord>)
    ensures |order| == m * n
    ensures forall p :: 0 <= p < |order| ==> order[p].0 < n && order[p].1 < m
    decreases m
  {
    if m == 0 then []
    else MeltOrder(n, m - 1) + seq(n, i requires 0 <= i < n => (i, m - 1))
  }

  /** `melt` visits every cell exactly once, in year-major order. */
  lemma {:induction false} MeltOrderYearMajor(n: nat, m: nat)
    ensures var order := MeltOrder(n, m);
      && (forall p, q :: 0 <= p < q < |order| ==> YearMajorBefore(order[p], order[q]))
      && (forall i, j :: 0 <= i < n && 0 <= j < m ==> (i, j) in order)
    decreases m
  {
    if m > 0 {
      MeltOrderYearMajor(n, m - 1);
      var before := MeltOrder(n, m - 1);
      var column: seq<Coord> := seq(n, i requires 0 <= i < n => (i, m - 1));
      var order := MeltOrder(n, m);
      assert order == before + column;
      forall p, q | 0 <= p < q < |order| ensures YearMajorBefore(order[p], order[q]) {
        if q < |before| {
          assert order[p] == before[p] && order[q] == before[q];
        } else if p < |before| {
          assert order[p] == before[p] && order[q] == column[q - |before|];
        } else {
          assert order[p] == column[p - |before|] && order[q] == column[q - |before|];
        }
      }
      forall i, j | 0 <= i < n && 0 <= j < m ensures (i, j) in order {
        if j < m - 1 {
          assert (i, j) in before;
        } else {
          assert column[i] == (i, j);
        }
      }
    }
  }

  /** A row of the unpivoted table before value coercion: key fields, year, raw cell. */
  datatype MeltedRow = MeltedRow(keys: seq<Option<string>>, year: int, raw: string)

  /** `melt(key names, var_name='year', value_name='value')`: one row per cell, in
      `MeltOrder`, carrying its row's key fields and its column's year. */
  function Melt(keys: seq<seq<Option<string>>>, years: seq<int>, rows: seq<WideRow>): (melted: seq<MeltedRow>)
    requires |keys| == |rows|
    requires forall i :: 0 <= i < |rows| ==> |rows[i].cells| == |years|
    ensures |melted| == |years| * |rows|
    ensures forall p :: 0 <= p < |melted| ==>
      var (i, j) := MeltOrder(|rows|, |years|)[p];
      melted[p] == MeltedRow(keys[i], years[j], rows[i].cells[j])
  {
    var order := MeltOrder(|rows|, |years|);
    seq(|order|, p requires 0 <= p < |order| =>
      MeltedRow(keys[order[p].0], years[order[p].1], rows[order[p].0].cells[order[p].1]))
  }

  /** `str.extract(...)` on the value column: the key fields and the year stay, and the
      value is a token of the pattern, missing exactly when the raw cell holds none. */
  function Coerce(m: MeltedRow): (o: Observation)
    ensures o.keys == m.keys && o.year == m.year
    ensures o.value.Some? ==> Extract.IsToken(o.value.value)
    ensures o.value.None? <==> forall i, e :: 0 <= i <= e <= |m.raw| ==> !Extract.IsToken(m.raw[i..e])
  {
    Extract.ExtractNoneIffNoToken(m.raw);
    Observation(m.keys, m.year, Extract.ExtractToken(m.raw))
  }

  /** The mask of `~isna()`. */
  predicate HasValue(o: Observation) {
    o.value.Some?
  }

  /** The mask of `df['region'] == region`; a missing key field equals nothing. */
  function RegionIs(region: string): Observation -> bool {
    (o: Observation) => |o.keys| > RegionPosition && o.keys[RegionPosition] == Some(region)
  }

  /** The column labels after the split, the unpivot and the rename of column 3. */
  function LongColumns(names: seq<string>): (columns: seq<string>)
    requires |names| > RegionPosition
    ensures |columns| == |names| + 2
    ensures columns[RegionPosition] == "region"
    ensures forall a :: 0 <= a < |names| && a != RegionPosition ==> columns[a] == names[a]
    ensures columns[|names|..] == ["year", "value"]
  {
    names[..RegionPosition] + ["region"] + names[RegionPosition + 1..] + ["year", "value"]
  }

  /** The key field names are distinct and clash neither with the columns the unpivot
      adds nor with the rename of column 3. */
  predicate WellLabelled(names: seq<string>) {
    && (forall a, b :: 0 <= a < b < |names| ==> names[a] != names[b])
    && "year" !in names
    && "value" !in names
    && (forall a :: 0 <= a < |names| && a != RegionPosition ==> names[a] != "region")
  }

  /** The positions of the year columns `melt` unpivots, in order. Assigning the split
      key fields to columns named after the key fields overwrites a year column that has
      one of those names: it becomes that key field and is not unpivoted. */
  function MeltedColumns(t: WideTable): (idx: seq<nat>)
    ensures StrictlyIncreasing(idx)
    ensures forall c :: 0 <= c < |idx| ==> idx[c] < |t.yearHeaders| && t.yearHeaders[idx[c]] !in KeyNames(t)
    ensures forall j :: 0 <= j < |t.yearHeaders| && t.yearHeaders[j] !in KeyNames(t) ==> j in idx
  {
    var names := KeyNames(t);
    var unpivoted := (h: string) => h !in names;
    FilterKeepsOrder(t.yearHeaders, unpivoted);
    KeptPositions(t.yearHeaders, unpivoted)
  }

  /** The table restricted to the year columns `melt` unpivots; the key cells stay
      (`UnpivotedCells` says which cell is which). */
  function Unpivoted(t: WideTable): (u: WideTable)
    requires Rectangular(t)
    ensures Rectangular(u)
    ensures u.keyHeader == t.keyHeader && |u.rows| == |t.rows|
    ensures SplitWidth(u.rows) == SplitWidth(t.rows)
    ensures |u.yearHeaders| <= |t.yearHeaders|
  {
    var idx := MeltedColumns(t);
    var rows := seq(|t.rows|, i requires 0 <= i < |t.rows| => WideRow(t.rows[i].key, Pick(t.rows[i].cells, idx)));
    SplitWidthOfKeys(rows, t.rows);
    IncreasingRoom(idx, 0, |t.yearHeaders|);
    WideTable(t.keyHeader, Pick(t.yearHeaders, idx), rows)
  }

  /** Row `i` of the restricted table has row `i`'s key cell, and its column `c` is the
      `c`-th unpivoted column of the table. */
  lemma UnpivotedCells(t: WideTable)
    requires Rectangular(t)
    ensures var u := Unpivoted(t); var idx := MeltedColumns(t);
      && |u.yearHeaders| == |idx|
      && (forall i :: 0 <= i < |t.rows| ==> u.rows[i].key == t.rows[i].key)
      && (forall c :: 0 <= c < |idx| ==> u.yearHeaders[c] == t.yearHeaders[idx[c]])
      && (forall i, c :: 0 <= i < |t.rows| && 0 <= c < |idx| ==> u.rows[i].cells[c] == t.rows[i].cells[idx[c]])
  {
  }

  /** The split width depends on the key cells alone. */
  lemma {:induction false} SplitWidthOfKeys(a: seq<WideRow>, b: seq<WideRow>)
    requires |a| == |b|
    requires forall i :: 0 <= i < |a| ==> a[i].key == b[i].key
    ensures SplitWidth(a) == SplitWidth(b)
    decreases |a|
  {
    if |a| > 0 {
      var n := |a| - 1;
      assert forall i :: 0 <= i < n ==> a[..n][i].key == b[..n][i].key;
      SplitWidthOfKeys(a[..n], b[..n]);
    }
  }

  /** When no year header is a key field name, `melt` unpivots every year column. */
  lemma AllMelted(t: WideTable)
    requires forall j :: 0 <= j < |t.yearHeaders| ==> t.yearHeaders[j] !in KeyNames(t)
    ensures |MeltedColumns(t)| == |t.yearHeaders|
    ensures forall c :: 0 <= c < |t.yearHeaders| ==> MeltedColumns(t)[c] == c
  {
    var idx := MeltedColumns(t);
    forall j | 0 <= j < |t.yearHeaders| ensures j in idx {
      assert t.yearHeaders[j] !in KeyNames(t);
    }
    IncreasingCover(idx, 0, |t.yearHeaders|);
  }

  /** When no year header is a key field name, every year column is unpivoted. */
  lemma UnpivotedAll(t: WideTable)
    requires Rectangular(t)
    requires forall j :: 0 <= j < |t.yearHeaders| ==> t.yearHeaders[j] !in KeyNames(t)
    ensures Unpivoted(t) == t
  {
    var idx := MeltedColumns(t);
    var m := |t.yearHeaders|;
    AllMelted(t);
    var u := Unpivoted(t);
    UnpivotedCells(t);
    assert |u.yearHeaders| == m;
    forall c | 0 <= c < m ensures u.yearHeaders[c] == t.yearHeaders[c] {
      assert idx[c] == c;
    }
    forall i | 0 <= i < |t.rows| ensures u.rows[i] == t.rows[i] {
      forall c | 0 <= c < m ensures u.rows[i].cells[c] == t.rows[i].cells[c] {
        assert idx[c] == c;
      }
      assert u.rows[i].cells == t.rows[i].cells;
    }
    assert u.rows == t.rows;
  }

  /** The headers `Clean` converts are the unpivoted ones: the conversion fails exactly
      when some year header that is no key field name does not convert, naming such a
      header, and there are none to convert exactly when every year header is a key
      field name. */
  lemma UnpivotedYears(t: WideTable)
    requires Rectangular(t)
    ensures var u := Unpivoted(t);
      && (ParseYears(u.yearHeaders).Failure? <==> SomeYearUnconverted(t))
      && (ParseYears(u.yearHeaders).Failure? ==>
            exists j :: 0 <= j < |t.yearHeaders| && t.yearHeaders[j] !in KeyNames(t)
              && ParseYear(t.yearHeaders[j]).None? && ParseYears(u.yearHeaders).error == BadYear(t.yearHeaders[j]))
      && (|u.yearHeaders| == 0 <==> NoYearUnpivoted(t))
  {
    UnpivotedBadYear(t);
    UnpivotedUnconverted(t);
    UnpivotedNone(t);
  }

  /** A failed conversion names an unpivoted header that does not convert. */
  lemma UnpivotedBadYear(t: WideTable)
    requires Rectangular(t)
    ensures var parsed := ParseYears(Unpivoted(t).yearHeaders);
      parsed.Failure? ==>
        exists j :: 0 <= j < |t.yearHeaders| && t.yearHeaders[j] !in KeyNames(t)
          && ParseYear(t.yearHeaders[j]).None? && parsed.error == BadYear(t.yearHeaders[j])
  {
    var u := Unpivoted(t);
    var idx := MeltedColumns(t);
    var parsed := ParseYears(u.yearHeaders);
    UnpivotedCells(t);
    if parsed.Failure? {
      var c :| 0 <= c < |u.yearHeaders| && ParseYear(u.yearHeaders[c]).None? && parsed.error == BadYear(u.yearHeaders[c]);
      assert u.yearHeaders[c] == t.yearHeaders[idx[c]];
    }
  }

  /** An unpivoted header that does not convert makes the conversion fail. */
  lemma UnpivotedUnconverted(t: WideTable)
    requires Rectangular(t)
    ensures SomeYearUnconverted(t) ==> ParseYears(Unpivoted(t).yearHeaders).Failure?
  {
    var names := KeyNames(t);
    if exists j :: 0 <= j < |t.yearHeaders| && t.yearHeaders[j] !in names && ParseYear(t.yearHeaders[j]).None? {
      var u := Unpivoted(t);
      var idx := MeltedColumns(t);
      var j :| 0 <= j < |t.yearHeaders| && t.yearHeaders[j] !in names && ParseYear(t.yearHeaders[j]).None?;
      assert j in idx;
      var c :| 0 <= c < |idx| && idx[c] == j;
      UnpivotedCells(t);
      assert ParseYear(u.yearHeaders[c]).None?;
    }
  }

  /** No year column is unpivoted exactly when every year header is a key field name. */
  lemma UnpivotedNone(t: WideTable)
    requires Rectangular(t)
    ensures |Unpivoted(t).yearHeaders| == 0 <==> NoYearUnpivoted(t)
  {
    var idx := MeltedColumns(t);
    var names := KeyNames(t);
    if |idx| > 0 {
      assert t.yearHeaders[idx[0]] !in names;
    }
    if exists j :: 0 <= j < |t.yearHeaders| && t.yearHeaders[j] !in names {
      var j :| 0 <= j < |t.yearHeaders| && t.yearHeaders[j] !in names;
      assert j in idx;
    }
  }

  /** The key fields of every row, split and expanded to the split width. */
  function ExpandedKeys(rows: seq<WideRow>): (keys: seq<seq<Option<string>>>)
    ensures |keys| == |rows|
    ensures forall i :: 0 <= i < |rows| ==> keys[i] == ExpandKey(rows[i].key, SplitWidth(rows))
  {
    var width := SplitWidth(rows);
    seq(|rows|, i requires 0 <= i < |rows| => ExpandKey(rows[i].key, width))
  }

  /** The unpivoted table after value coercion, before any row is dropped. */
  function Observed(t: WideTable, years: seq<int>): (observed: seq<Observation>)
    requires Rectangular(t)
    requires |years| == |t.yearHeaders|
    ensures |observed| == |t.yearHeaders| * |t.rows|
    ensures forall p :: 0 <= p < |observed| ==> |observed[p].keys| == SplitWidth(t.rows)
  {
    Map(Melt(ExpandedKeys(t.rows), years, t.rows), Coerce)
  }

  /** The observations that survive `dropna` and the region mask. */
  function Selected(t: WideTable, years: seq<int>, region: string): (rows: seq<Observation>)
    requires Rectangular(t)
    requires |years| == |t.yearHeaders|
    ensures |rows| <= |t.rows| * |t.yearHeaders|
    ensures forall k :: 0 <= k < |rows| ==>
      var o := rows[k];
      && |o.keys| == SplitWidth(t.rows)
      && |o.keys| > RegionPosition && o.keys[RegionPosition] == Some(region)
      && o.value.Some? && Extract.IsToken(o.value.value)
  {
    var observed := Observed(t, years);
    var present := Filter(observed, HasValue);
    var selected := Filter(present, RegionIs(region));
    assert forall o :: o in present ==> o in observed;
    selected
  }

  /** The error conditions of `Clean`: the split width differs from the header's field
      count (always so for a table without rows), there are fewer than four key fields,
      a year header that is no key field name does not convert, or every year header is
      a key field name (no year column is unpivoted). */
  predicate Fails(t: WideTable) {
    || SplitWidth(t.rows) != |KeyNames(t)|
    || |KeyNames(t)| <= RegionPosition
    || SomeYearUnconverted(t)
    || NoYearUnpivoted(t)
  }

  /** A year header that is no key field name does not convert. */
  predicate SomeYearUnconverted(t: WideTable) {
    exists j :: 0 <= j < |t.yearHeaders| && t.yearHeaders[j] !in KeyNames(t) && ParseYear(t.yearHeaders[j]).None?
  }

  /** Every year header is a key field name. */
  predicate NoYearUnpivoted(t: WideTable) {
    forall j :: 0 <= j < |t.yearHeaders| ==> t.yearHeaders[j] in KeyNames(t)
  }

  /** `CleanTSV.clean_data(t, region)`. */
  function Clean(t: WideTable, region: string): (r: Result<LongTable, WideError>)
    requires Rectangular(t)
    requires WellLabelled(KeyNames(t))
    ensures r.Failure? <==> Fails(t)
    ensures r.Failure? ==>
      && (r.error.KeyWidthMismatch? <==> SplitWidth(t.rows) != |KeyNames(t)|)
      // With two key fields, a bad year is reported before the missing region column.
      && (r.error.NoRegionColumn? ==>
            && |KeyNames(t)| <= RegionPosition && r.error.names == |KeyNames(t)|
            && (|KeyNames(t)| == 2 ==> !SomeYearUnconverted(t)))
      && (r.error.BadYear? ==>
            exists j :: 0 <= j < |t.yearHeaders| && t.yearHeaders[j] !in KeyNames(t)
              && ParseYear(t.yearHeaders[j]).None? && r.error.header == t.yearHeaders[j])
      && (r.error.NothingUnpivoted? ==> |KeyNames(t)| > RegionPosition && NoYearUnpivoted(t))
    ensures SplitWidth(t.rows) == |KeyNames(t)| && (|KeyNames(t)| == 1 || |KeyNames(t)| == 3) ==>
      r == Failure(NoRegionColumn(|KeyNames(t)|))
    ensures r.Success? ==>
      var names := KeyNames(t);
      && |names| > RegionPosition
      && |r.value.columns| == |names| + 2
      && r.value.columns[RegionPosition] == "region"
      && (forall a :: 0 <= a < |names| && a != RegionPosition ==> r.value.columns[a] == names[a])
      && r.value.columns[|names|..] == ["year", "value"]
    ensures r.Success? ==> forall k :: 0 <= k < |r.value.rows| ==>
      var o := r.value.rows[k];
      && |o.keys| == |KeyNames(t)|
      && o.keys[RegionPosition] == Some(region)
      && o.value.Some? && Extract.IsToken(o.value.value)
    ensures r.Success? ==> |r.value.rows| <= |t.rows| * |Unpivoted(t).yearHeaders|
  {
    var names := KeyNames(t);
    var width := SplitWidth(t.rows);
    if width != |names| then Failure(KeyWidthMismatch(|names|, width))
    // With one key field, its own column receives the split and is then dropped, so
    // `melt` finds no column of that name. With three, column 3 of the unpivoted table
    // is `year`, renamed away before the years convert. With two it is `value`, whose
    // absence shows only after the years convert.
    else if |names| != 2 && |names| <= RegionPosition then Failure(NoRegionColumn(|names|))
    else
      var u := Unpivoted(t);
      UnpivotedYears(t);
      match ParseYears(u.yearHeaders)
      case Failure(e) => Failure(e)
      case Success(years) =>
        if |names| <= RegionPosition then Failure(NoRegionColumn(|names|))
        // Nothing unpivoted leaves `value` an empty numeric column, which `.str` refuses.
        else if |u.yearHeaders| == 0 then Failure(NothingUnpivoted)
        else Success(LongTable(LongColumns(names), Selected(u, years, region)))
  }

  /** The error order for two key fields: a year label that does not convert is reported,
      and only when every unpivoted label converts is the region column found missing. */
  lemma CleanTwoNames(t: WideTable, region: string)
    requires Rectangular(t)
    requires WellLabelled(KeyNames(t))
    requires SplitWidth(t.rows) == |KeyNames(t)| == 2
    ensures ParseYears(Unpivoted(t).yearHeaders).Failure? ==>
      Clean(t, region).Failure? && Clean(t, region).error.BadYear?
    ensures ParseYears(Unpivoted(t).yearHeaders).Success? ==>
      Clean(t, region) == Failure(NoRegionColumn(2))
  {
  }

  /** The observation the cell at `c` becomes once unpivoted and coerced. */
  function CellObservation(t: WideTable, years: seq<int>, c: Coord): Observation
    requires Rectangular(t)
    requires |years| == |t.yearHeaders|
    requires c.0 < |t.rows| && c.1 < |t.yearHeaders|
  {
    Observation(ExpandKey(t.rows[c.0].key, SplitWidth(t.rows)), years[c.1],
                Extract.ExtractToken(t.rows[c.0].cells[c.1]))
  }

  /** The cell at `c` holds a value and its row's region field is `region`. */
  predicate Kept(t: WideTable, region: string, c: Coord)
    requires Rectangular(t)
    requires c.0 < |t.rows| && c.1 < |t.yearHeaders|
  {
    var key := ExpandKey(t.rows[c.0].key, SplitWidth(t.rows));
    && Extract.ExtractToken(t.rows[c.0].cells[c.1]).Some?
    && |key| > RegionPosition && key[RegionPosition] == Some(region)
  }

  /** The unpivoted, coerced table reads the cells in `melt` order. */
  lemma ObservedInMeltOrder(t: WideTable, years: seq<int>)
    requires Rectangular(t)
    requires |years| == |t.yearHeaders|
    ensures var order := MeltOrder(|t.rows|, |t.yearHeaders|);
      forall p :: 0 <= p < |order| ==> Observed(t, years)[p] == CellObservation(t, years, order[p])
  {
    var melted := Melt(ExpandedKeys(t.rows), years, t.rows);
    assert Observed(t, years) == Map(melted, Coerce);
  }

  /** The two masks together keep a cell's observation exactly when the cell is kept. */
  lemma MaskKeepsKeptCells(t: WideTable, years: seq<int>, region: string, c: Coord)
    requires Rectangular(t)
    requires |years| == |t.yearHeaders|
    requires c.0 < |t.rows| && c.1 < |t.yearHeaders|
    ensures And(HasValue, RegionIs(region))(CellObservation(t, years, c)) <==> Kept(t, region, c)
  {
    var o := CellObservation(t, years, c);
    assert And(HasValue, RegionIs(region))(o) <==> HasValue(o) && RegionIs(region)(o);
    assert RegionIs(region)(o) <==> |o.keys| > RegionPosition && o.keys[RegionPosition] == Some(region);
  }

  /** The mask `Selected` applies, as one predicate. */
  function Keep(region: string): Observation -> bool {
    And(HasValue, RegionIs(region))
  }

  /** `Selected` is the unpivoted table under the single mask `Keep`. */
  lemma SelectedIsOneMask(t: WideTable, years: seq<int>, region: string)
    requires Rectangular(t)
    requires |years| == |t.yearHeaders|
    ensures Selected(t, years, region) == Filter(Observed(t, years), Keep(region))
    ensures SubsequenceAt(Selected(t, years, region), Observed(t, years), KeptPositions(Observed(t, years), Keep(region)))
    ensures forall p :: 0 <= p < |Observed(t, years)| ==>
      (Keep(region)(Observed(t, years)[p]) <==> p in KeptPositions(Observed(t, years), Keep(region)))
  {
    FilterFilter(Observed(t, years), HasValue, RegionIs(region));
    FilterKeepsOrder(Observed(t, years), Keep(region));
  }

  /** The observations `Selected` keeps are exactly those of the kept cells, in the order
      `melt` produced them: `pos[k]` is the cell the `k`-th one comes from. */
  lemma SelectedAreKeptCells(t: WideTable, years: seq<int>, region: string) returns (pos: seq<Coord>)
    requires Rectangular(t)
    requires |years| == |t.yearHeaders|
    ensures |pos| == |Selected(t, years, region)|
    ensures forall k :: 0 <= k < |pos| ==>
      && pos[k].0 < |t.rows| && pos[k].1 < |t.yearHeaders|
      && Selected(t, years, region)[k] == CellObservation(t, years, pos[k])
    ensures forall k, l :: 0 <= k < l < |pos| ==> YearMajorBefore(pos[k], pos[l])
    ensures forall i, j :: 0 <= i < |t.rows| && 0 <= j < |t.yearHeaders| ==>
      ((i, j) in pos <==> Kept(t, region, (i, j)))
  {
    var order := MeltOrder(|t.rows|, |t.yearHeaders|);
    var observed := Observed(t, years);
    var selected := Selected(t, years, region);
    MeltOrderYearMajor(|t.rows|, |t.yearHeaders|);
    ObservedInMeltOrder(t, years);
    SelectedIsOneMask(t, years, region);
    var idx;
    idx, pos := FilterAlong(observed, order, Keep(region));
    SelectedCellsFacts(t, years, region, order, observed, selected, idx, pos);
  }

  /** The kept cells come out of `melt` in year-major order. */
  lemma SelectedCellsOrdered(order: seq<Coord>, idx: seq<nat>, pos: seq<Coord>)
    requires forall p, q :: 0 <= p < q < |order| ==> YearMajorBefore(order[p], order[q])
    requires |idx| == |pos|
    requires StrictlyIncreasing(idx)
    requires forall k :: 0 <= k < |idx| ==> idx[k] < |order| && pos[k] == order[idx[k]]
    ensures forall k, l :: 0 <= k < l < |pos| ==> YearMajorBefore(pos[k], pos[l])
  {
    forall k, l | 0 <= k < l < |pos| ensures YearMajorBefore(pos[k], pos[l]) {
      assert idx[k] < idx[l];
    }
  }

  /** One cell is among the selected ones exactly when it is kept. */
  lemma SelectedCell(t: WideTable, years: seq<int>, region: string, order: seq<Coord>,
                     observed: seq<Observation>, idx: seq<nat>, pos: seq<Coord>, c: Coord)
    requires Rectangular(t)
    requires |years| == |t.yearHeaders|
    requires c.0 < |t.rows| && c.1 < |t.yearHeaders|
    requires |observed| == |order|
    requires forall p :: 0 <= p < |order| ==> order[p].0 < |t.rows| && order[p].1 < |t.yearHeaders|
    requires c in order
    requires forall p :: 0 <= p < |order| ==> observed[p] == CellObservation(t, years, order[p])
    requires |idx| == |pos|
    requires forall k :: 0 <= k < |idx| ==>
      idx[k] < |observed| && pos[k] == order[idx[k]] && Keep(region)(observed[idx[k]])
    requires forall p :: 0 <= p < |observed| && Keep(region)(observed[p]) ==>
      exists k :: 0 <= k < |idx| && idx[k] == p
    ensures c in pos <==> Kept(t, region, c)
  {
    MaskKeepsKeptCells(t, years, region, c);
    if Kept(t, region, c) {
      var p :| 0 <= p < |order| && order[p] == c;
      assert Keep(region)(observed[p]);
      var k :| 0 <= k < |idx| && idx[k] == p;
      assert pos[k] == c;
    }
    if c in pos {
      var k :| 0 <= k < |pos| && pos[k] == c;
      assert observed[idx[k]] == CellObservation(t, years, c);
    }
  }

  lemma SelectedCellsFacts(t: WideTable, years: seq<int>, region: string, order: seq<Coord>,
                           observed: seq<Observation>, selected: seq<Observation>,
                           idx: seq<nat>, pos: seq<Coord>)
    requires Rectangular(t)
    requires |years| == |t.yearHeaders|
    requires |observed| == |order|
    requires forall p :: 0 <= p < |order| ==> order[p].0 < |t.rows| && order[p].1 < |t.yearHeaders|
    requires forall p, q :: 0 <= p < q < |order| ==> YearMajorBefore(order[p], order[q])
    requires forall i, j :: 0 <= i < |t.rows| && 0 <= j < |t.yearHeaders| ==> (i, j) in order
    requires forall p :: 0 <= p < |order| ==> observed[p] == CellObservation(t, years, order[p])
    requires |idx| == |pos| == |selected|
    requires StrictlyIncreasing(idx)
    requires forall k :: 0 <= k < |idx| ==>
      idx[k] < |observed| && pos[k] == order[idx[k]] && selected[k] == observed[idx[k]]
      && Keep(region)(observed[idx[k]])
    requires forall p :: 0 <= p < |observed| && Keep(region)(observed[p]) ==>
      exists k :: 0 <= k < |idx| && idx[k] == p
    ensures forall k :: 0 <= k < |pos| ==>
      && pos[k].0 < |t.rows| && pos[k].1 < |t.yearHeaders|
      && selected[k] == CellObservation(t, years, pos[k])
    ensures forall k, l :: 0 <= k < l < |pos| ==> YearMajorBefore(pos[k], pos[l])
    ensures forall i, j :: 0 <= i < |t.rows| && 0 <= j < |t.yearHeaders| ==>
      ((i, j) in pos <==> Kept(t, region, (i, j)))
  {
    SelectedCellsOrdered(order, idx, pos);
    forall i, j | 0 <= i < |t.rows| && 0 <= j < |t.yearHeaders|
      ensures (i, j) in pos <==> Kept(t, region, (i, j))
    {
      SelectedCell(t, years, region, order, observed, idx, pos, (i, j));
    }
  }

  /** What the cleaned table holds: one observation for every cell of an unpivoted year
      column that has a value and whose row's region field is `region`, and no other. Each carries its row's key
      fields, its column's year and the token extracted from the cell, and they appear in
      `melt` order: by year column first, then by row. */
  lemma CleanRowsAreKeptCells(t: WideTable, region: string, out: LongTable) returns (pos: seq<Coord>)
    requires Rectangular(t)
    requires WellLabelled(KeyNames(t))
    requires Clean(t, region) == Success(out)
    ensures SplitWidth(t.rows) == |KeyNames(t)| > RegionPosition
    ensures var u := Unpivoted(t);
      forall i, j :: 0 <= i < |u.rows| && 0 <= j < |u.yearHeaders| ==>
        ((i, j) in pos <==> Kept(u, region, (i, j)))
    ensures forall k, l :: 0 <= k < l < |pos| ==> YearMajorBefore(pos[k], pos[l])
    ensures |pos| == |out.rows|
    ensures forall k :: 0 <= k < |pos| ==> ObservationOf(Unpivoted(t), pos[k], out.rows[k])
  {
    var u := Unpivoted(t);
    var years := ParseYears(u.yearHeaders).value;
    assert out.rows == Selected(u, years, region);
    pos := SelectedAreKeptCells(u, years, region);
    forall k | 0 <= k < |pos| ensures ObservationOf(u, pos[k], out.rows[k]) {
      assert Some(years[pos[k].1]) == ParseYear(u.yearHeaders[pos[k].1]);
    }
  }

  /** `o` is what the cell at `c` becomes: its row's key fields expanded to the split
      width, the year its column header converts to, and the token its text holds. */
  predicate ObservationOf(t: WideTable, c: Coord, o: Observation) {
    && c.0 < |t.rows| && c.1 < |t.yearHeaders| && c.1 < |t.rows[c.0].cells|
    && o.keys == ExpandKey(t.rows[c.0].key, SplitWidth(t.rows))
    && Some(o.year) == ParseYear(t.yearHeaders[c.1])
    && o.value == Extract.ExtractToken(t.rows[c.0].cells[c.1])
  }

  /** When every key cell has exactly as many parts as the header has names, each
      output row's key fields are its source row's key parts (`unit`, `sex`, `age`, then
      the part renamed to `region`), none missing. */
  lemma CleanKeysAreKeyParts(t: WideTable, region: string, out: LongTable) returns (pos: seq<Coord>)
    requires Rectangular(t)
    requires WellLabelled(KeyNames(t))
    requires Clean(t, region) == Success(out)
    requires forall i :: 0 <= i < |t.rows| ==> |KeyParts(t.rows[i].key)| == |KeyNames(t)|
    ensures |pos| == |out.rows|
    ensures forall k :: 0 <= k < |pos| ==>
      && pos[k].0 < |t.rows|
      && |out.rows[k].keys| == |KeyParts(t.rows[pos[k].0].key)|
      && (forall f :: 0 <= f < |out.rows[k].keys| ==> out.rows[k].keys[f] == Some(KeyParts(t.rows[pos[k].0].key)[f]))
      && |KeyParts(t.rows[pos[k].0].key)| > RegionPosition
      && KeyParts(t.rows[pos[k].0].key)[RegionPosition] == region
  {
    pos := CleanRowsAreKeptCells(t, region, out);
    var u := Unpivoted(t);
    UnpivotedCells(t);
    forall k | 0 <= k < |pos|
      ensures KeyParts(t.rows[pos[k].0].key)[RegionPosition] == region
    {
      assert ObservationOf(u, pos[k], out.rows[k]);
      assert out.rows[k].keys[RegionPosition] == Some(region);
    }
  }
}

=== FILE: extract.dfy ===
/** The value coercion of the wide-table cleaner: `str.extract(r'([0-9]+\.?[0-9])')`
    keeps the first match of the pattern in a cell, or a missing value when there is none.
    The pattern needs at least two digits and does not need a fractional digit:
    "79" and "100" match whole, "5" does not match, "1.23" yields "1.2", "83.2 e" yields "83.2". */
module Extract {
  import opened Wrappers
  import opened Text

  /** The whole of `t` matches `[0-9]+\.?[0-9]`: two or more digits, or one or more
      digits, a point and exactly one digit. */
  predicate IsToken(t: string) {
    || (|t| >= 2 && AllDigits(t))
    || (|t| >= 3 && AllDigits(t[..|t| - 2]) && t[|t| - 2] == '.' && IsDigit(t[|t| - 1]))
  }

  /** The number of consecutive digits of `s` starting at position `i`. */
  function RunLength(s: string, i: nat): (n: nat)
    requires i <= |s|
    ensures i + n <= |s|
    ensures forall j :: i <= j < i + n ==> IsDigit(s[j])
    ensures i + n == |s| || !IsDigit(s[i + n])
    decreases |s| - i
  {
    if i < |s| && IsDigit(s[i]) then 1 + RunLength(s, i + 1) else 0
  }

  /** What the backtracking matcher returns when anchored at `i`: `[0-9]+` first takes the
      whole digit run; `\.?[0-9]` then succeeds right after it only on a point followed by
      a digit; otherwise the run gives its last digit back to `[0-9]`, which needs a run
      of at least two digits. */
  function MatchAt(s: string, i: nat): (r: Option<string>)
    requires i <= |s|
    ensures r.Some? ==> IsToken(r.value) && i + |r.value| <= |s|
  {
    var n := RunLength(s, i);
    var p := i + n;
    if n == 0 then None
    else if p + 1 < |s| && s[p] == '.' && IsDigit(s[p + 1]) then
      assert s[i..p + 2][..n] == s[i..p];
      Some(s[i..p + 2])
    else if n >= 2 then Some(s[i..p])
    else None
  }

  /** `re.search` from position `i`: the anchored match at the first position that has one. */
  function SearchFrom(s: string, i: nat): (r: Option<string>)
    requires i <= |s|
    ensures r.Some? ==> IsToken(r.value) && |r.value| <= |s|
    decreases |s| - i
  {
    if i == |s| then None
    else
      match MatchAt(s, i)
      case Some(t) => Some(t)
      case None => SearchFrom(s, i + 1)
  }

  /** The extracted value of one raw cell; `None` is the missing value the cleaner drops. */
  function ExtractToken(s: string): (r: Option<string>)
    ensures r.Some? ==> IsToken(r.value) && |r.value| <= |s|
  {
    SearchFrom(s, 0)
  }

  /** The reference reading of the pattern: `t` is a token occurring in `s` at `k`, no
      token of `s` starts before `k`, and no longer token starts at `k`. */
  ghost predicate LeftmostLongest(s: string, k: nat, t: string) {
    && k + |t| <= |s|
    && s[k..k + |t|] == t
    && IsToken(t)
    && (forall i, e :: 0 <= i < k && i <= e <= |s| ==> !IsToken(s[i..e]))
    && (forall e :: k + |t| < e <= |s| ==> !IsToken(s[k..e]))
  }

  /** A run of digits from `i` to `j` is at most as long as the run `RunLength` measures. */
  lemma {:induction false} RunLengthAtLeast(s: string, i: nat, j: nat)
    requires i <= j <= |s|
    requires forall m :: i <= m < j ==> IsDigit(s[m])
    ensures RunLength(s, i) >= j - i
    decreases j - i
  {
    if i < j {
      RunLengthAtLeast(s, i + 1, j);
    }
  }

  /** Every token starting at `i` either lies inside the digit run at `i` or is that whole
      run followed by a point and a digit. */
  lemma TokenShape(s: string, i: nat, e: nat)
    requires i <= e <= |s|
    requires IsToken(s[i..e])
    ensures var p := i + RunLength(s, i);
      || (2 <= e - i && e <= p)
      || (e == p + 2 && s[p] == '.' && IsDigit(s[p + 1]))
  {
    var t := s[i..e];
    var n := RunLength(s, i);
    var p := i + n;
    if |t| >= 2 && AllDigits(t) {
      RunLengthAtLeast(s, i, e);
    } else {
      assert forall m :: i <= m < e - 2 ==> IsDigit(s[m]) by {
        forall m | i <= m < e - 2 ensures IsDigit(s[m]) {
          assert s[m] == t[..|t| - 2][m - i];
        }
      }
      RunLengthAtLeast(s, i, e - 2);
      assert s[e - 2] == '.' && IsDigit(s[e - 1]) by {
        assert s[e - 2] == t[|t| - 2] && s[e - 1] == t[|t| - 1];
      }
    }
  }

  /** The anchored match is a token, it is the text of `s` at `i`, and no longer token
      starts at `i`. */
  lemma MatchAtSound(s: string, i: nat)
    requires i <= |s|
    requires MatchAt(s, i).Some?
    ensures var t := MatchAt(s, i).value;
      && i + |t| <= |s| && s[i..i + |t|] == t && IsToken(t)
      && forall e :: i + |t| < e <= |s| ==> !IsToken(s[i..e])
  {
    var t := MatchAt(s, i).value;
    var n := RunLength(s, i);
    var p := i + n;
    if p + 1 < |s| && s[p] == '.' && IsDigit(s[p + 1]) {
      assert t[..|t| - 2] == s[i..p];
    }
    forall e | i + |t| < e <= |s| ensures !IsToken(s[i..e]) {
      if IsToken(s[i..e]) {
        TokenShape(s, i, e);
      }
    }
  }

  /** Where a token starts, the anchored matcher succeeds, with a match at least as long. */
  lemma MatchAtComplete(s: string, i: nat, e: nat)
    requires i <= e <= |s|
    requires IsToken(s[i..e])
    ensures MatchAt(s, i).Some? && |MatchAt(s, i).value| >= e - i
  {
    TokenShape(s, i, e);
  }

  /** `SearchFrom` returns the anchored match at the first position from `i` that has one,
      and nothing when no position does. */
  lemma {:induction false} SearchFromFinds(s: string, i: nat)
    requires i <= |s|
    ensures SearchFrom(s, i).Some? ==>
      exists k :: i <= k < |s| && MatchAt(s, k) == SearchFrom(s, i)
        && forall j :: i <= j < k ==> MatchAt(s, j).None?
    ensures SearchFrom(s, i).None? ==> forall j :: i <= j < |s| ==> MatchAt(s, j).None?
    decreases |s| - i
  {
    if i < |s| && MatchAt(s, i).None? {
      SearchFromFinds(s, i + 1);
    }
  }

  /** Conversely, the first position with a match is the one `SearchFrom` reports. */
  lemma {:induction false} SearchFromReaches(s: string, i: nat, k: nat)
    requires i <= k < |s|
    requires MatchAt(s, k).Some?
    requires forall j :: i <= j < k ==> MatchAt(s, j).None?
    ensures SearchFrom(s, i) == MatchAt(s, k)
    decreases k - i
  {
    if i < k {
      SearchFromReaches(s, i + 1, k);
    }
  }

  /** The extracted value is the longest token at the leftmost position where a token
      occurs. */
  lemma ExtractFindsLeftmostLongest(s: string)
    requires ExtractToken(s).Some?
    ensures exists k :: LeftmostLongest(s, k, ExtractToken(s).value)
  {
    var t := ExtractToken(s).value;
    SearchFromFinds(s, 0);
    var k :| 0 <= k < |s| && MatchAt(s, k) == Some(t)
      && forall j :: 0 <= j < k ==> MatchAt(s, j).None?;
    MatchAtSound(s, k);
    forall i, e | 0 <= i < k && i <= e <= |s| ensures !IsToken(s[i..e]) {
      if IsToken(s[i..e]) {
        MatchAtComplete(s, i, e);
      }
    }
    assert LeftmostLongest(s, k, t);
  }

  /** Whatever satisfies the reference reading is what the matcher extracts. */
  lemma LeftmostLongestIsExtracted(s: string, k: nat, t: string)
    requires LeftmostLongest(s, k, t)
    ensures ExtractToken(s) == Some(t)
  {
    MatchAtComplete(s, k, k + |t|);
    MatchAtSound(s, k);
    forall j | 0 <= j < k ensures MatchAt(s, j).None? {
      if MatchAt(s, j).Some? {
        MatchAtSound(s, j);
      }
    }
    SearchFromReaches(s, 0, k);
  }

  /** The regex engine's choice agrees with the reference reading, in both directions. */
  lemma ExtractIsLeftmostLongest(s: string, t: string)
    ensures ExtractToken(s) == Some(t) <==> exists k: nat :: LeftmostLongest(s, k, t)
  {
    if ExtractToken(s) == Some(t) {
      ExtractFindsLeftmostLongest(s);
    }
    if k: nat :| LeftmostLongest(s, k, t) {
      LeftmostLongestIsExtracted(s, k, t);
    }
  }

  /** A cell yields no value exactly when no part of it is a token. */
  lemma ExtractNoneIffNoToken(s: string)
    ensures ExtractToken(s).None? <==>
      forall i, e :: 0 <= i <= e <= |s| ==> !IsToken(s[i..e])
  {
    if ExtractToken(s).None? {
      SearchFromFinds(s, 0);
      forall i, e | 0 <= i <= e <= |s| ensures !IsToken(s[i..e]) {
        if IsToken(s[i..e]) {
          MatchAtComplete(s, i, e);
        }
      }
    } else {
      var t := ExtractToken(s).value;
      ExtractFindsLeftmostLongest(s);
      var k: nat :| LeftmostLongest(s, k, t);
      assert IsToken(s[k..k + |t|]);
    }
  }

  /** Extraction is idempotent: re-extracting from a stored value gives it back, so a
      second coercion of the cleaned table would drop no further rows. */
  lemma ExtractIdempotent(t: string)
    requires IsToken(t)
    ensures ExtractToken(t) == Some(t)
  {
    assert t[0..|t|] == t;
    LeftmostLongestIsExtracted(t, 0, t);
  }

  /** The pattern's tolerance on the cells that occur in the data: a trailing annotation
      is ignored, a single digit is not a value, and only one fractional digit is kept. */
  lemma ExtractExamples()
    ensures ExtractToken("83.2 ") == Some("83.2")
    ensures ExtractToken("79.6") == Some("79.6")
    ensures ExtractToken("79") == Some("79")
    ensures ExtractToken("100") == Some("100")
    ensures ExtractToken("1.23") == Some("1.2")
    ensures ExtractToken("5") == None
    ensures ExtractToken(": ") == None
  {
    var a := "83.2 ";
    assert RunLength(a, 2) == 0 && RunLength(a, 0) == 2;
    assert a[0..4] == "83.2";
    var b := "79.6";
    assert RunLength(b, 2) == 0 && RunLength(b, 0) == 2;
    assert b[0..4] == b;
    var c := "79";
    assert RunLength(c, 0) == 2 && c[0..2] == c;
    var d := "100";
    assert RunLength(d, 0) == 3 && d[0..3] == d;
    var e := "1.23";
    assert RunLength(e, 1) == 0 && RunLength(e, 0) == 1;
    assert e[0..3] == "1.2";
    var f := "5";
    assert RunLength(f, 0) == 1 && SearchFrom(f, 1) == None;
    var g := ": ";
    assert MatchAt(g, 0) == None && MatchAt(g, 1) == None && SearchFrom(g, 2) == None;
  }
}

=== FILE: fixtures.dfy ===
/** The sample table the cleaning tests use, and what each cleaner makes of it. */
module Fixtures {
  import opened Wrappers
  import Text
  import Extract
  import opened CleanWide
  import Pipeline

  /** The sample data as the tab-separated loader yields it: two Albanian rows and one
      Portuguese row, years 2021 to 2023; one cell carries a trailing blank. */
  function WideSample(): WideTable {
    WideTable(Text.Join(SampleNames(), KeySeparator), ["2021", "2022", "2023"],
      [ WideRow(Text.Join(SampleKey("AL"), KeySeparator), ["79.4", "79.4", "83.2 "])
      , WideRow(Text.Join(SampleKey("AL"), KeySeparator), ["79.6", "79.6", "79.6"])
      , WideRow(Text.Join(SampleKey("PT"), KeySeparator), ["79.6", "79.6", "79.6"]) ])
  }

  /** The key field names of the sample table's first header, "unit,sex,age,geo\time". */
  function SampleNames(): seq<string> {
    ["unit", "sex", "age", "geo\time"]
  }

  /** The key fields of a sample row: "YR,F,Y1,AL" for an Albanian one. */
  function SampleKey(region: string): seq<string> {
    ["YR", "F", "Y1", region]
  }

  /** The expected result: the three Portuguese observations, one per year. */
  function WideExpected(): LongTable {
    var keys := [Some("YR"), Some("F"), Some("Y1"), Some("PT")];
    LongTable(["unit", "sex", "age", "region", "year", "value"],
      [ Observation(keys, 2021, Some("79.6"))
      , Observation(keys, 2022, Some("79.6"))
      , Observation(keys, 2023, Some("79.6")) ])
  }

  /** Cells of one row, strictly ordered and covering all `m` columns, are that row's
      columns from first to last. */
  lemma OneRowInOrder(pos: seq<Coord>, r: nat, m: nat)
    requires forall k :: 0 <= k < |pos| ==> pos[k].0 == r && pos[k].1 < m
    requires forall k, l :: 0 <= k < l < |pos| ==> YearMajorBefore(pos[k], pos[l])
    requires forall j :: 0 <= j < m ==> (r, j) in pos
    ensures pos == seq(m, j requires 0 <= j < m => (r, j))
  {
    forall k | 0 <= k < |pos| ensures pos[k].1 == k {
      ColumnAt(pos, r, m, k);
    }
    if m > 0 {
      var k :| 0 <= k < |pos| && pos[k] == (r, m - 1);
    }
  }

  /** The `k`-th of those cells sits in column `k`. */
  lemma {:induction false} ColumnAt(pos: seq<Coord>, r: nat, m: nat, k: nat)
    requires forall k :: 0 <= k < |pos| ==> pos[k].0 == r && pos[k].1 < m
    requires forall k, l :: 0 <= k < l < |pos| ==> YearMajorBefore(pos[k], pos[l])
    requires forall j :: 0 <= j < m ==> (r, j) in pos
    requires k < |pos|
    ensures pos[k].1 == k
  {
    if k > 0 {
      ColumnAt(pos, r, m, k - 1);
    }
    // every earlier cell lies in an earlier column, so column `k` is not before index `k`
    assert pos[k].1 >= k by {
      if k > 0 { assert YearMajorBefore(pos[k - 1], pos[k]); }
    }
    var q :| 0 <= q < |pos| && pos[q] == (r, k);
    assert k <= q;
    assert q <= k;
  }

  /** The sample table's first header splits into its four key field names. */
  lemma WideSampleNames(t: WideTable)
    requires t == WideSample()
    ensures KeyNames(t) == SampleNames()
  {
    Text.SplitJoin(SampleNames(), KeySeparator);
  }

  /** Row `i` of the sample table has the key fields `YR`, `F`, `Y1` and its region. */
  lemma WideSampleKey(t: WideTable, i: nat)
    requires t == WideSample()
    requires i < 3
    ensures KeyParts(t.rows[i].key) == SampleKey(if i < 2 then "AL" else "PT")
  {
    Text.SplitJoin(SampleKey(if i < 2 then "AL" else "PT"), KeySeparator);
  }

  /** Every key cell of the sample table has four fields. */
  lemma WideSampleWidth(t: WideTable)
    requires t == WideSample()
    ensures SplitWidth(t.rows) == 4
  {
    forall i | 0 <= i < |t.rows| ensures |KeyParts(t.rows[i].key)| == 4 {
      WideSampleKey(t, i);
    }
  }

  /** They are distinct and clash with nothing the cleaner adds. */
  lemma SampleNamesWellLabelled(names: seq<string>)
    requires names == SampleNames()
    ensures WellLabelled(names)
  {
  }

  /** One year header converts to its year. */
  lemma YearHeader(header: string, y: nat)
    requires header == Text.ShowNat(y)
    requires y <= Int64Max
    ensures ParseYear(header) == Some(y)
  {
    Text.ParseShowInt(y, "", "");
    assert "" + Text.ShowInt(y) + "" == Text.ShowNat(y);
  }

  /** Year header `j` of the sample table converts to 2021 + `j`. */
  lemma WideSampleYear(t: WideTable, j: nat)
    requires t == WideSample()
    requires j < 3
    ensures ParseYear(t.yearHeaders[j]) == Some(2021 + j)
  {
    if j == 0 {
      assert Text.ShowNat(2021) == t.yearHeaders[j];
    } else if j == 1 {
      assert Text.ShowNat(2022) == t.yearHeaders[j];
    } else {
      assert Text.ShowNat(2023) == t.yearHeaders[j];
    }
    YearHeader(t.yearHeaders[j], 2021 + j);
  }

  /** Three headers converting to consecutive years from 2021 convert together. */
  lemma ConsecutiveYears(headers: seq<string>)
    requires |headers| == 3
    requires forall j :: 0 <= j < |headers| ==> ParseYear(headers[j]) == Some(2021 + j)
    ensures ParseYears(headers) == Success([2021, 2022, 2023])
  {
    var r := ParseYears(headers);
    assert r.Success?;
    assert Some(r.value[0]) == Some(2021) && Some(r.value[1]) == Some(2022) && Some(r.value[2]) == Some(2023);
    assert r.value == [2021, 2022, 2023];
  }

  /** The sample table's year headers convert to 2021, 2022 and 2023. */
  lemma WideSampleYears(t: WideTable)
    requires t == WideSample()
    ensures ParseYears(t.yearHeaders) == Success([2021, 2022, 2023])
  {
    forall j | 0 <= j < 3 ensures ParseYear(t.yearHeaders[j]) == Some(2021 + j) {
      WideSampleYear(t, j);
    }
    ConsecutiveYears(t.yearHeaders);
  }

  /** The sample table meets the cleaner's preconditions. */
  lemma WideSampleWellFormed(t: WideTable)
    requires t == WideSample()
    ensures Rectangular(t) && WellLabelled(KeyNames(t))
  {
    WideSampleNames(t);
    SampleNamesWellLabelled(KeyNames(t));
  }

  /** No year header of the sample table is a key field name, so `melt` unpivots every
      year column. */
  lemma WideSampleHeaders(t: WideTable)
    requires t == WideSample()
    ensures forall j :: 0 <= j < |t.yearHeaders| ==> t.yearHeaders[j] !in KeyNames(t)
  {
    WideSampleNames(t);
    YearsAreNotNames(t.yearHeaders, KeyNames(t));
  }

  lemma YearsAreNotNames(headers: seq<string>, names: seq<string>)
    requires headers == ["2021", "2022", "2023"] && names == SampleNames()
    ensures forall j :: 0 <= j < |headers| ==> headers[j] !in names
  {
    forall j | 0 <= j < |headers| ensures headers[j] !in names {
      assert headers[j][0] == '2';
    }
  }

  /** The sample table passes every check of the cleaner. */
  lemma WideSampleAccepted(t: WideTable)
    requires t == WideSample()
    ensures !Fails(t)
  {
    WideSampleNames(t);
    WideSampleWidth(t);
    WideSampleYears(t);
    WideSampleHeaders(t);
    Accepted(t);
  }

  /** A table whose key cells match its header of four or more names, whose year headers
      all convert, and which has a year header that is no key field name, is cleaned. */
  lemma Accepted(t: WideTable)
    requires SplitWidth(t.rows) == |KeyNames(t)| > RegionPosition
    requires ParseYears(t.yearHeaders).Success?
    requires |t.yearHeaders| > 0 && t.yearHeaders[0] !in KeyNames(t)
    ensures !Fails(t)
  {
  }

  /** Every cell of the Portuguese row holds the value 79.6. */
  lemma WideSampleToken(t: WideTable, j: nat)
    requires t == WideSample()
    requires j < 3
    ensures Extract.ExtractToken(t.rows[2].cells[j]) == Some("79.6")
  {
    var cell := t.rows[2].cells[j];
    assert cell == "79.6";
    assert Extract.IsToken(cell) by {
      assert cell[..|cell| - 2] == "79";
    }
    Extract.ExtractIdempotent(cell);
  }

  /** The region field of row `i` of the sample table. */
  lemma WideSampleRegion(t: WideTable, i: nat)
    requires t == WideSample()
    requires i < 3
    ensures SplitWidth(t.rows) == |KeyParts(t.rows[i].key)| == 4
    ensures ExpandKey(t.rows[i].key, 4) == [Some("YR"), Some("F"), Some("Y1"), Some(if i < 2 then "AL" else "PT")]
  {
    WideSampleWidth(t);
    WideSampleKey(t, i);
  }

  /** In the sample table the Portuguese row is the only one kept, and all its cells are. */
  lemma WideSampleKept(t: WideTable, i: nat, j: nat)
    requires t == WideSample()
    requires i < 3 && j < 3
    ensures Rectangular(t)
    ensures Kept(t, "PT", (i, j)) <==> i == 2
  {
    WideSampleRegion(t, i);
    if i == 2 {
      WideSampleToken(t, j);
    }
  }

  /** When the kept cells of the unpivoted columns are exactly the cells of row `r`,
      the cleaned table holds row `r`'s observations, one per unpivoted column, in column
      order. */
  lemma CleanOneRow(t: WideTable, u: WideTable, region: string, r: nat, out: LongTable)
    requires Rectangular(t) && WellLabelled(KeyNames(t))
    requires Clean(t, region) == Success(out)
    requires u == Unpivoted(t)
    requires r < |u.rows|
    requires forall i, j :: 0 <= i < |u.rows| && 0 <= j < |u.yearHeaders| ==> (Kept(u, region, (i, j)) <==> i == r)
    ensures |out.rows| == |u.yearHeaders|
    ensures forall j :: 0 <= j < |u.yearHeaders| ==> ObservationOf(u, (r, j), out.rows[j])
  {
    var pos := CleanRowsAreKeptCells(t, region, out);
    OneRowObservations(u, region, r, pos, out.rows);
  }

  /** The observations of the kept cells, when those are exactly row `r`'s. */
  lemma OneRowObservations(u: WideTable, region: string, r: nat, pos: seq<Coord>, rows: seq<Observation>)
    requires Rectangular(u)
    requires r < |u.rows|
    requires forall i, j :: 0 <= i < |u.rows| && 0 <= j < |u.yearHeaders| ==>
      (Kept(u, region, (i, j)) <==> i == r)
    requires forall i, j :: 0 <= i < |u.rows| && 0 <= j < |u.yearHeaders| ==>
      ((i, j) in pos <==> Kept(u, region, (i, j)))
    requires forall k, l :: 0 <= k < l < |pos| ==> YearMajorBefore(pos[k], pos[l])
    requires |pos| == |rows|
    requires forall k :: 0 <= k < |pos| ==> ObservationOf(u, pos[k], rows[k])
    ensures |rows| == |u.yearHeaders|
    ensures forall j :: 0 <= j < |u.yearHeaders| ==> ObservationOf(u, (r, j), rows[j])
  {
    forall k | 0 <= k < |pos| ensures pos[k].0 < |u.rows| && pos[k].1 < |u.yearHeaders| {
      assert ObservationOf(u, pos[k], rows[k]);
    }
    OneRowCells(u, region, r, pos);
    forall j | 0 <= j < |u.yearHeaders| ensures ObservationOf(u, (r, j), rows[j]) {
      assert pos[j] == (r, j);
    }
  }

  /** The kept cells, listed in year-major order, when they are exactly row `r`'s. */
  lemma OneRowCells(t: WideTable, region: string, r: nat, pos: seq<Coord>)
    requires Rectangular(t)
    requires r < |t.rows|
    requires forall i, j :: 0 <= i < |t.rows| && 0 <= j < |t.yearHeaders| ==>
      (Kept(t, region, (i, j)) <==> i == r)
    requires forall k :: 0 <= k < |pos| ==> pos[k].0 < |t.rows| && pos[k].1 < |t.yearHeaders|
    requires forall k, l :: 0 <= k < l < |pos| ==> YearMajorBefore(pos[k], pos[l])
    requires forall i, j :: 0 <= i < |t.rows| && 0 <= j < |t.yearHeaders| ==>
      ((i, j) in pos <==> Kept(t, region, (i, j)))
    ensures pos == seq(|t.yearHeaders|, j requires 0 <= j < |t.yearHeaders| => (r, j))
  {
    var m := |t.yearHeaders|;
    forall k | 0 <= k < |pos| ensures pos[k].0 == r && pos[k].1 < m {
      assert (pos[k].0, pos[k].1) in pos;
    }
    forall j | 0 <= j < m ensures (r, j) in pos {
    }
    OneRowInOrder(pos, r, m);
  }

  /** Cleaning the sample table for Portugal keeps exactly its three Portuguese
      observations, in year order. */
  lemma WideSampleCleansToPortugal(t: WideTable, region: string)
    requires t == WideSample() && region == "PT"
    ensures Rectangular(t) && WellLabelled(KeyNames(t))
    ensures Clean(t, region) == Success(WideExpected())
  {
    WideSampleShaped(t, region);
    CleanSampleShape(t, region);
  }

  /** The sample table has the shape `CleanSampleShape` describes. */
  lemma WideSampleShaped(t: WideTable, region: string)
    requires t == WideSample() && region == "PT"
    ensures Rectangular(t) && WellLabelled(KeyNames(t))
    ensures SampleShaped(t, region)
  {
    WideSampleWellFormed(t);
    WideSampleAccepted(t);
    WideSampleHeaders(t);
    WideSampleKeptRow(t, region);
    WideSampleNames(t);
    WideSampleRegion(t, 2);
    WideSampleCells(t);
  }

  /** The Portuguese row's years and values. */
  lemma WideSampleCells(t: WideTable)
    requires t == WideSample()
    ensures forall j :: 0 <= j < 3 ==> ParseYear(t.yearHeaders[j]) == Some(2021 + j)
    ensures forall j :: 0 <= j < 3 ==> Extract.ExtractToken(t.rows[2].cells[j]) == Some("79.6")
  {
    forall j | 0 <= j < 3
      ensures ParseYear(t.yearHeaders[j]) == Some(2021 + j)
      ensures Extract.ExtractToken(t.rows[2].cells[j]) == Some("79.6")
    {
      WideSampleYear(t, j);
      WideSampleToken(t, j);
    }
  }

  /** The sample's shape: Portuguese key fields in row 2 of three, which alone is kept,
      and years 2021 to 2023. */
  ghost predicate SampleShaped(t: WideTable, region: string) {
    && Rectangular(t) && WellLabelled(KeyNames(t)) && !Fails(t)
    && (forall j :: 0 <= j < |t.yearHeaders| ==> t.yearHeaders[j] !in KeyNames(t))
    && |t.rows| == 3 && |t.yearHeaders| == 3
    && KeyNames(t) == SampleNames()
    && (forall i, j :: 0 <= i < |t.rows| && 0 <= j < |t.yearHeaders| ==>
          (Kept(t, region, (i, j)) <==> i == 2))
    && |KeyParts(t.rows[2].key)| == 4
    && ExpandKey(t.rows[2].key, 4) == [Some("YR"), Some("F"), Some("Y1"), Some("PT")]
    && (forall j :: 0 <= j < 3 ==> ParseYear(t.yearHeaders[j]) == Some(2021 + j))
    && (forall j :: 0 <= j < 3 ==> Extract.ExtractToken(t.rows[2].cells[j]) == Some("79.6"))
  }

  /** What the cleaner makes of any table with the sample's shape: Portuguese key fields
      in row 2, which alone is kept, and years 2021 to 2023. */
  lemma CleanSampleShape(t: WideTable, region: string)
    requires Rectangular(t) && WellLabelled(KeyNames(t))
    requires SampleShaped(t, region)
    ensures Clean(t, region) == Success(WideExpected())
  {
    var out := Clean(t, region).value;
    SampleRows(t, region, out);
    SampleColumns(t, region, out);
  }

  lemma SampleRows(t: WideTable, region: string, out: LongTable)
    requires Rectangular(t) && WellLabelled(KeyNames(t))
    requires SampleShaped(t, region)
    requires Clean(t, region) == Success(out)
    ensures out.rows == WideExpected().rows
  {
    UnpivotedAll(t);
    CleanOneRow(t, t, region, 2, out);
    SampleObservations(t, region, out.rows);
  }

  /** The observations of the Portuguese row of a table with the sample's shape. */
  lemma SampleObservations(t: WideTable, region: string, rows: seq<Observation>)
    requires SampleShaped(t, region)
    requires |rows| == 3
    requires forall j :: 0 <= j < 3 ==> ObservationOf(t, (2, j), rows[j])
    ensures rows == WideExpected().rows
  {
    assert SplitWidth(t.rows) == 4 by {
      assert SplitWidth(t.rows) == |KeyNames(t)|;
    }
    var expected := WideExpected();
    forall j | 0 <= j < 3 ensures rows[j] == expected.rows[j] {
      SampleRow(t, rows[j], j);
    }
  }

  /** The column labels the cleaner gives a table with the sample's header. */
  lemma SampleColumns(t: WideTable, region: string, out: LongTable)
    requires Rectangular(t) && WellLabelled(KeyNames(t))
    requires KeyNames(t) == SampleNames()
    requires Clean(t, region) == Success(out)
    ensures out.columns == WideExpected().columns
  {
    var names := KeyNames(t);
    var c := out.columns;
    assert c[0] == names[0] && c[1] == names[1] && c[2] == names[2];
    SixColumns(c, names);
  }

  lemma SixColumns(c: seq<string>, names: seq<string>)
    requires names == SampleNames()
    requires |c| == 6 && c[0] == names[0] && c[1] == names[1] && c[2] == names[2]
    requires c[3] == "region" && c[4..] == ["year", "value"]
    ensures c == WideExpected().columns
  {
    assert c[4] == "year" && c[5] == "value";
  }

  /** The observation of year column `j` of the Portuguese row. */
  lemma SampleRow(t: WideTable, o: Observation, j: nat)
    requires Rectangular(t)
    requires |t.rows| == 3 && |t.yearHeaders| == 3 && j < 3
    requires SplitWidth(t.rows) == 4
    requires |KeyParts(t.rows[2].key)| == 4
    requires ExpandKey(t.rows[2].key, 4) == [Some("YR"), Some("F"), Some("Y1"), Some("PT")]
    requires ParseYear(t.yearHeaders[j]) == Some(2021 + j)
    requires Extract.ExtractToken(t.rows[2].cells[j]) == Some("79.6")
    requires ObservationOf(t, (2, j), o)
    ensures o == WideExpected().rows[j]
  {
  }

  /** Of the sample table, exactly the Portuguese row's cells are kept. */
  lemma WideSampleKeptRow(t: WideTable, region: string)
    requires t == WideSample() && region == "PT"
    ensures Rectangular(t)
    ensures forall i, j :: 0 <= i < |t.rows| && 0 <= j < |t.yearHeaders| ==>
      (Kept(t, region, (i, j)) <==> i == 2)
  {
    forall i, j | 0 <= i < |t.rows| && 0 <= j < |t.yearHeaders|
      ensures Kept(t, region, (i, j)) <==> i == 2
    {
      WideSampleKept(t, i, j);
    }
  }


  /** `main` on a '.tsv' name whose loader yields the sample table returns the expected
      Portuguese table and saves exactly that table to the output file. */
  lemma MainOnWideSample(name: string, region: string, loaders: Pipeline.Loaders)
    requires Pipeline.LoadersWellFormed(loaders)
    requires name == "eu_life_expectancy_raw.tsv" && region == "PT"
    requires loaders.tsv(name) == Success(WideSample())
    ensures Pipeline.Main(name, region, loaders).loaded == [name]
    ensures Pipeline.Main(name, region, loaders).result == Success(Pipeline.Long(WideExpected()))
    ensures Pipeline.Main(name, region, loaders).saved ==
      [(Pipeline.OutputFileName, Pipeline.Long(WideExpected()))]
  {
    Pipeline.DispatchExamples();
    WideSampleCleansToPortugal(loaders.tsv(name).value, region);
  }
}

=== FILE: flat_fixtures.dfy ===
/** The JSON cleaner on a small sample of the export's records, and `main` on a '.zip'
    name whose loader yields them. */
module FlatFixtures {
  import opened Wrappers
  import opened Seqs
  import opened CleanFlat
  import Pipeline

  /** Two records of the export, one Albanian and one Portuguese, with the annotation
      columns the cleaner drops. */
  function FlatSample(): FlatTable {
    FlatTable(["unit", "sex", "age", "country", "year", "life_expectancy", "flag", "flag_detail"],
      [ [Str("YR"), Str("F"), Str("Y1"), Str("AL"), Number("2021"), Number("79.4"), Null, Null]
      , [Str("YR"), Str("F"), Str("Y1"), Str("PT"), Number("2021"), Number("79.6"), Str("p"), Str("provisional")] ])
  }

  /** The expected result: the Portuguese record without its annotations, under the
      canonical labels. */
  function FlatExpected(): FlatTable {
    FlatTable(["unit", "sex", "age", "region", "year", "value"],
      [ [Str("YR"), Str("F"), Str("Y1"), Str("PT"), Number("2021"), Number("79.6")] ])
  }

  /** The shape of the sample records: eight columns of which the first six stay and
      are renamed to the expected labels, and two rows of which only the second is in
      `region`, its first six cells being the expected row. */
  ghost predicate FlatShaped(t: FlatTable, region: string) {
    && Rectangular(t) && RegionLabelledOnce(t.columns) && !Fails(t)
    && |t.columns| == 8 && |t.rows| == 2
    && (forall a :: 0 <= a < 8 ==> (Retained(t.columns[a]) <==> a < 6))
    && (forall a :: 0 <= a < 6 ==> Renamed(t.columns[a]) == FlatExpected().columns[a])
    && (forall i :: 0 <= i < 2 ==> (InRegion(3, region)(t.rows[i]) <==> i == 1))
    && t.rows[1][..6] == FlatExpected().rows[0]
  }

  lemma FlatSampleShaped(t: FlatTable, region: string)
    requires t == FlatSample() && region == "PT"
    ensures Rectangular(t) && RegionLabelledOnce(t.columns)
    ensures FlatShaped(t, region)
  {
    FlatSampleColumns(t.columns);
    FlatSampleRows(t, region);
  }

  lemma FlatSampleColumns(columns: seq<string>)
    requires columns == FlatSample().columns
    ensures RegionLabelledOnce(columns)
    ensures |columns| == 8
    ensures "flag" in columns && "flag_detail" in columns && Renamed(columns[3]) == "region"
    ensures forall a :: 0 <= a < 8 ==> (Retained(columns[a]) <==> a < 6)
    ensures forall a :: 0 <= a < 6 ==> Renamed(columns[a]) == FlatExpected().columns[a]
  {
    assert columns[6] == "flag" && columns[7] == "flag_detail";
  }

  lemma FlatSampleRows(t: FlatTable, region: string)
    requires t == FlatSample() && region == "PT"
    ensures Rectangular(t)
    ensures |t.rows| == 2
    ensures forall i :: 0 <= i < 2 ==> (InRegion(3, region)(t.rows[i]) <==> i == 1)
    ensures t.rows[1][..6] == FlatExpected().rows[0]
  {
  }

  /** What the cleaner makes of any table with the sample's shape. */
  lemma FlatCleanShape(t: FlatTable, region: string)
    requires Rectangular(t) && RegionLabelledOnce(t.columns)
    requires FlatShaped(t, region)
    ensures Clean(t, region) == Success(FlatExpected())
  {
    FlatCleaned(t, region, Clean(t, region).value);
  }

  /** The cleaned records of a table with the sample's shape, from what the cleaner is
      proved to keep. */
  lemma FlatCleaned(t: FlatTable, region: string, out: FlatTable)
    requires Rectangular(t) && RegionLabelledOnce(t.columns)
    requires FlatShaped(t, region)
    requires Clean(t, region) == Success(out)
    ensures out == FlatExpected()
  {
    var idx, pos := CleanKeepsRegionRows(t, region, out);
    FlatFromFacts(t, region, out, idx, pos);
  }

  lemma FlatFromFacts(t: FlatTable, region: string, out: FlatTable, idx: seq<nat>, pos: seq<nat>)
    requires FlatShaped(t, region)
    requires |idx| == |out.columns|
    requires StrictlyIncreasing(idx)
    requires forall k :: 0 <= k < |idx| ==> idx[k] < |t.columns| && out.columns[k] == Renamed(t.columns[idx[k]])
    requires forall a :: 0 <= a < |t.columns| ==> (a in idx <==> Retained(t.columns[a]))
    requires forall a, i :: 0 <= a < |t.columns| && Renamed(t.columns[a]) == "region" && 0 <= i < |t.rows| ==>
      (i in pos <==> InRegion(a, region)(t.rows[i]))
    requires |pos| == |out.rows|
    requires StrictlyIncreasing(pos)
    requires forall k :: 0 <= k < |pos| ==> pos[k] < |t.rows| && ProjectionOf(out.rows[k], t.rows[pos[k]], idx)
    ensures out == FlatExpected()
  {
    FlatColumnsKept(t, idx);
    assert Renamed(t.columns[3]) == "region";
    forall i | 0 <= i < 2 ensures i in pos <==> i == 1 {
      assert i in pos <==> InRegion(3, region)(t.rows[i]);
    }
    IncreasingCover(pos, 1, 2);
    FlatColumnsRenamed(t.columns, out.columns, idx);
    assert ProjectionOf(out.rows[0], t.rows[1], idx);
    FlatRowProjected(t.rows[1], out.rows[0], idx);
    assert out.rows == [out.rows[0]];
  }

  lemma FlatColumnsRenamed(columns: seq<string>, renamed: seq<string>, idx: seq<nat>)
    requires |columns| == 8
    requires forall a :: 0 <= a < 6 ==> Renamed(columns[a]) == FlatExpected().columns[a]
    requires |idx| == |renamed| == 6
    requires forall k :: 0 <= k < 6 ==> idx[k] == k
    requires forall k :: 0 <= k < |idx| ==> idx[k] < |columns| && renamed[k] == Renamed(columns[idx[k]])
    ensures renamed == FlatExpected().columns
  {
  }

  lemma FlatRowProjected(row: seq<Cell>, projected: seq<Cell>, idx: seq<nat>)
    requires |row| == 8
    requires row[..6] == FlatExpected().rows[0]
    requires |idx| == 6
    requires forall k :: 0 <= k < 6 ==> idx[k] == k
    requires ProjectionOf(projected, row, idx)
    ensures projected == FlatExpected().rows[0]
  {
    assert projected == row[..6];
  }

  lemma FlatColumnsKept(t: FlatTable, idx: seq<nat>)
    requires |t.columns| == 8
    requires StrictlyIncreasing(idx)
    requires forall k :: 0 <= k < |idx| ==> idx[k] < |t.columns|
    requires forall a :: 0 <= a < |t.columns| ==> (a in idx <==> Retained(t.columns[a]))
    requires forall a :: 0 <= a < 8 ==> (Retained(t.columns[a]) <==> a < 6)
    ensures |idx| == 6 && forall k :: 0 <= k < 6 ==> idx[k] == k
  {
    forall k | 0 <= k < |idx| ensures idx[k] < 6 {
      assert idx[k] in idx;
    }
    IncreasingCover(idx, 0, 6);
  }

  /** Cleaning the sample records for Portugal drops the annotations, renames the
      country and value columns and keeps the one Portuguese record. */
  lemma FlatSampleCleansToPortugal(t: FlatTable, region: string)
    requires t == FlatSample() && region == "PT"
    ensures Rectangular(t) && RegionLabelledOnce(t.columns)
    ensures Clean(t, region) == Success(FlatExpected())
  {
    FlatSampleShaped(t, region);
    FlatCleanShape(t, region);
  }

  /** `main` on a '.zip' name whose loader yields the sample records returns the expected
      Portuguese records and saves exactly them to the output file. */
  lemma MainOnFlatSample(name: string, region: string, loaders: Pipeline.Loaders)
    requires Pipeline.LoadersWellFormed(loaders)
    requires name == "eurostat_life_expec.zip" && region == "PT"
    requires loaders.json(name) == Success(FlatSample())
    ensures Pipeline.Main(name, region, loaders).loaded == [name]
    ensures Pipeline.Main(name, region, loaders).result == Success(Pipeline.Records(FlatExpected()))
    ensures Pipeline.Main(name, region, loaders).saved ==
      [(Pipeline.OutputFileName, Pipeline.Records(FlatExpected()))]
  {
    Pipeline.DispatchExamples();
    FlatSampleCleansToPortugal(loaders.json(name).value, region);
  }
}

=== FILE: pipeline.dfy ===
/** `main`: picks the (loader, cleaner) pair from the input file's suffix, loads, cleans
    for the requested region, saves the result and returns it. The loaders and the
    save are outside the model: loaders are parameters, and the run records which files
    it loaded and what it saved. */
module Pipeline {
  import opened Wrappers
  import CleanWide
  import CleanFlat

  /** The name of the file the cleaned table is saved to. */
  const OutputFileName: string := "pt_life_expectancy.csv"

  /** `name.rsplit('.', maxsplit=1)[-1]`: the text after the last '.', or the whole name
      when it has none. */
  function FormatTag(name: string): (tag: string)
    ensures '.' !in tag
    ensures |tag| <= |name| && name[|name| - |tag|..] == tag
    ensures |tag| < |name| ==> name[|name| - |tag| - 1] == '.'
    decreases |name|
  {
    if |name| == 0 then ""
    else if name[|name| - 1] == '.' then ""
    else
      var front := name[..|name| - 1];
      var tag := FormatTag(front);
      assert name == front + [name[|name| - 1]];
      tag + [name[|name| - 1]]
  }

  /** The two strategies: the zipped JSON export, or the tab-separated table. */
  datatype Strategy =
    | Archive   // LoadJSON with CleanJSON
    | Delimited // LoadTSV with CleanTSV

  /** The strategy a format tag selects; matching is exact, so case matters. */
  function SelectStrategy(tag: string): (s: Option<Strategy>)
    ensures s == Some(Archive) <==> tag == "zip"
    ensures s == Some(Delimited) <==> tag == "tsv"
  {
    if tag == "zip" then Some(Archive)
    else if tag == "tsv" then Some(Delimited)
    else None
  }

  /** The loaders, one per strategy: each reads the named file, or fails with a message. */
  datatype Loaders = Loaders(
    json: string -> Result<CleanFlat.FlatTable, string>,
    tsv: string -> Result<CleanWide.WideTable, string>)

  /** What the loaders yield is a table the cleaners accept. */
  ghost predicate LoadersWellFormed(loaders: Loaders) {
    && (forall name :: loaders.json(name).Success? ==>
          CleanFlat.Rectangular(loaders.json(name).value) &&
          CleanFlat.RegionLabelledOnce(loaders.json(name).value.columns))
    && (forall name :: loaders.tsv(name).Success? ==>
          CleanWide.Rectangular(loaders.tsv(name).value) &&
          CleanWide.WellLabelled(CleanWide.KeyNames(loaders.tsv(name).value)))
  }

  /** The cleaned table, in whichever shape its cleaner produces. */
  datatype Cleaned = Records(flat: CleanFlat.FlatTable) | Long(long: CleanWide.LongTable)

  /** Why a run fails. */
  datatype RunError =
    | UnsupportedFormat(tag: string)       // neither 'zip' nor 'tsv': no loader is bound
    | LoadFailed(message: string)
    | FlatFailed(flat: CleanFlat.FlatError)
    | WideFailed(wide: CleanWide.WideError)

  /** One run: the files loaded, the (file, table) pairs saved, and the outcome. */
  datatype Run = Run(loaded: seq<string>, saved: seq<(string, Cleaned)>, result: Result<Cleaned, RunError>)

  /** Loading and cleaning with the selected strategy. An exception propagates: a load
      that fails is the outcome, with its message, and the cleaner is not reached; a
      cleaner that fails is the outcome; otherwise the outcome is the cleaned table. */
  function LoadAndClean(strategy: Strategy, name: string, region: string, loaders: Loaders): (r: Result<Cleaned, RunError>)
    requires LoadersWellFormed(loaders)
    ensures strategy == Archive && loaders.json(name).Failure? ==> r == Failure(LoadFailed(loaders.json(name).error))
    ensures strategy == Delimited && loaders.tsv(name).Failure? ==> r == Failure(LoadFailed(loaders.tsv(name).error))
    ensures strategy == Archive && loaders.json(name).Success? ==>
      var cleaned := CleanFlat.Clean(loaders.json(name).value, region);
      && (cleaned.Failure? ==> r == Failure(FlatFailed(cleaned.error)))
      && (cleaned.Success? ==> r == Success(Records(cleaned.value)))
    ensures strategy == Delimited && loaders.tsv(name).Success? ==>
      var cleaned := CleanWide.Clean(loaders.tsv(name).value, region);
      && (cleaned.Failure? ==> r == Failure(WideFailed(cleaned.error)))
      && (cleaned.Success? ==> r == Success(Long(cleaned.value)))
  {
    match strategy
    case Archive =>
      (match loaders.json(name)
       case Failure(m) => Failure(LoadFailed(m))
       case Success(t) =>
         match CleanFlat.Clean(t, region)
         case Failure(e) => Failure(FlatFailed(e))
         case Success(c) => Success(Records(c)))
    case Delimited =>
      (match loaders.tsv(name)
       case Failure(m) => Failure(LoadFailed(m))
       case Success(t) =>
         match CleanWide.Clean(t, region)
         case Failure(e) => Failure(WideFailed(e))
         case Success(c) => Success(Long(c)))
  }

  /** `main(name, region)`. */
  function Main(name: string, region: string, loaders: Loaders): (run: Run)
    requires LoadersWellFormed(loaders)
    ensures (run.result.Failure? && run.result.error.UnsupportedFormat?) <==>
      FormatTag(name) != "zip" && FormatTag(name) != "tsv"
    ensures run.result.Failure? && run.result.error.UnsupportedFormat? ==>
      run.loaded == [] && run.saved == [] && run.result.error.tag == FormatTag(name)
    ensures FormatTag(name) in {"zip", "tsv"} ==> run.loaded == [name]
    ensures run.result.Success? ==> run.saved == [(OutputFileName, run.result.value)]
    ensures run.result.Failure? ==> run.saved == []
    ensures FormatTag(name) == "zip" && loaders.json(name).Failure? ==>
      run.result == Failure(LoadFailed(loaders.json(name).error))
    ensures FormatTag(name) == "tsv" && loaders.tsv(name).Failure? ==>
      run.result == Failure(LoadFailed(loaders.tsv(name).error))
    ensures FormatTag(name) == "zip" && loaders.json(name).Success? ==>
      var cleaned := CleanFlat.Clean(loaders.json(name).value, region);
      && (run.result.Success? <==> cleaned.Success?)
      && (run.result.Success? ==> run.result.value == Records(cleaned.value))
      && (cleaned.Failure? ==> run.result == Failure(FlatFailed(cleaned.error)))
    ensures FormatTag(name) == "tsv" && loaders.tsv(name).Success? ==>
      var cleaned := CleanWide.Clean(loaders.tsv(name).value, region);
      && (run.result.Success? <==> cleaned.Success?)
      && (run.result.Success? ==> run.result.value == Long(cleaned.value))
      && (cleaned.Failure? ==> run.result == Failure(WideFailed(cleaned.error)))
  {
    var tag := FormatTag(name);
    match SelectStrategy(tag)
    case None => Run([], [], Failure(UnsupportedFormat(tag)))
    case Some(strategy) =>
      var result := LoadAndClean(strategy, name, region, loaders);
      Run([name], if result.Success? then [(OutputFileName, result.value)] else [], result)
  }

  /** The tag of a name with a '.' is the '.'-free text after its last '.'. */
  lemma {:induction false} FormatTagAfterDot(stem: string, tag: string)
    requires '.' !in tag
    ensures FormatTag(stem + "." + tag) == tag
    decreases |tag|
  {
    if |tag| == 0 {
      assert (stem + "." + tag)[|stem + "." + tag| - 1] == '.';
    } else {
      var name := stem + "." + tag;
      var last := tag[|tag| - 1];
      var front := tag[..|tag| - 1];
      assert tag == front + [last];
      assert name[..|name| - 1] == stem + "." + front;
      FormatTagAfterDot(stem, front);
    }
  }

  /** A name without a '.' is its own tag. */
  lemma {:induction false} FormatTagNoDot(name: string)
    requires '.' !in name
    ensures FormatTag(name) == name
    decreases |name|
  {
    if |name| > 0 {
      var front := name[..|name| - 1];
      assert forall c :: c in front ==> c in name;
      FormatTagNoDot(front);
    }
  }

  /** The names the tests use select the expected strategies, and the tag is compared
      exactly. */
  lemma DispatchExamples()
    ensures SelectStrategy(FormatTag("eurostat_life_expec.zip")) == Some(Archive)
    ensures SelectStrategy(FormatTag("eu_life_expectancy_raw.tsv")) == Some(Delimited)
    ensures SelectStrategy(FormatTag("archive.tar.gz")) == None
    ensures SelectStrategy(FormatTag("data.TSV")) == None
    ensures SelectStrategy(FormatTag("tsv")) == Some(Delimited)
  {
    FormatTagAfterDot("eurostat_life_expec", "zip");
    assert "eurostat_life_expec" + "." + "zip" == "eurostat_life_expec.zip";
    FormatTagAfterDot("eu_life_expectancy_raw", "tsv");
    assert "eu_life_expectancy_raw" + "." + "tsv" == "eu_life_expectancy_raw.tsv";
    FormatTagAfterDot("archive.tar", "gz");
    assert "archive.tar" + "." + "gz" == "archive.tar.gz";
    FormatTagAfterDot("data", "TSV");
    assert "data" + "." + "TSV" == "data.TSV";
    FormatTagNoDot("tsv");
  }
}

=== FILE: regions.dfy ===
/** The closed catalogue of region codes the data is keyed by: individual countries and
    eight aggregate groupings of countries, with the query that lists the countries only. */
module Regions {
  import opened Wrappers
  import opened Seqs

  /** One member per enumerated code, in declaration order. */
  datatype Region =
      AT | BE | BG | CH | CY | CZ | DK | EE | EL | ES
    | FI | FR | HR | HU | IS | IT | LI | LT | LU | LV
    | MT | NL | NO | PL | PT | RO | SE | SI | SK | DE
    | DE_TOT | AL | IE | ME | MK | RS | AM | AZ | GE | TR
    | UA | BY | UK | XK | FX | MD | SM | RU | EEA30_2007 | EU27_2007
    | EU27_2020 | EEA31 | EFTA | EA18 | EA19 | EU28

  /** The member's value, which is its own name. */
  function Code(r: Region): string {
    match r
    case AT => "AT"
    case BE => "BE"
    case BG => "BG"
    case CH => "CH"
    case CY => "CY"
    case CZ => "CZ"
    case DK => "DK"
    case EE => "EE"
    case EL => "EL"
    case ES => "ES"
    case FI => "FI"
    case FR => "FR"
    case HR => "HR"
    case HU => "HU"
    case IS => "IS"
    case IT => "IT"
    case LI => "LI"
    case LT => "LT"
    case LU => "LU"
    case LV => "LV"
    case MT => "MT"
    case NL => "NL"
    case NO => "NO"
    case PL => "PL"
    case PT => "PT"
    case RO => "RO"
    case SE => "SE"
    case SI => "SI"
    case SK => "SK"
    case DE => "DE"
    case DE_TOT => "DE_TOT"
    case AL => "AL"
    case IE => "IE"
    case ME => "ME"
    case MK => "MK"
    case RS => "RS"
    case AM => "AM"
    case AZ => "AZ"
    case GE => "GE"
    case TR => "TR"
    case UA => "UA"
    case BY => "BY"
    case UK => "UK"
    case XK => "XK"
    case FX => "FX"
    case MD => "MD"
    case SM => "SM"
    case RU => "RU"
    case EEA30_2007 => "EEA30_2007"
    case EU27_2007 => "EU27_2007"
    case EU27_2020 => "EU27_2020"
    case EEA31 => "EEA31"
    case EFTA => "EFTA"
    case EA18 => "EA18"
    case EA19 => "EA19"
    case EU28 => "EU28"
  }

  /** The member declared at position `i`. */
  function DeclaredAt(i: nat): Region
    requires i < 56
  {
    match i
    case 0 => AT
    case 1 => BE
    case 2 => BG
    case 3 => CH
    case 4 => CY
    case 5 => CZ
    case 6 => DK
    case 7 => EE
    case 8 => EL
    case 9 => ES
    case 10 => FI
    case 11 => FR
    case 12 => HR
    case 13 => HU
    case 14 => IS
    case 15 => IT
    case 16 => LI
    case 17 => LT
    case 18 => LU
    case 19 => LV
    case 20 => MT
    case 21 => NL
    case 22 => NO
    case 23 => PL
    case 24 => PT
    case 25 => RO
    case 26 => SE
    case 27 => SI
    case 28 => SK
    case 29 => DE
    case 30 => DE_TOT
    case 31 => AL
    case 32 => IE
    case 33 => ME
    case 34 => MK
    case 35 => RS
    case 36 => AM
    case 37 => AZ
    case 38 => GE
    case 39 => TR
    case 40 => UA
    case 41 => BY
    case 42 => UK
    case 43 => XK
    case 44 => FX
    case 45 => MD
    case 46 => SM
    case 47 => RU
    case 48 => EEA30_2007
    case 49 => EU27_2007
    case 50 => EU27_2020
    case 51 => EEA31
    case 52 => EFTA
    case 53 => EA18
    case 54 => EA19
    case _ => EU28
  }

  /** Every member, in the order the enumeration declares them (its iteration order). */
  const Declared: seq<Region> := seq(56, i requires 0 <= i < 56 => DeclaredAt(i))

  /** A member's position in `Declared`. */
  function Ordinal(r: Region): nat {
    match r
    case AT => 0
    case BE => 1
    case BG => 2
    case CH => 3
    case CY => 4
    case CZ => 5
    case DK => 6
    case EE => 7
    case EL => 8
    case ES => 9
    case FI => 10
    case FR => 11
    case HR => 12
    case HU => 13
    case IS => 14
    case IT => 15
    case LI => 16
    case LT => 17
    case LU => 18
    case LV => 19
    case MT => 20
    case NL => 21
    case NO => 22
    case PL => 23
    case PT => 24
    case RO => 25
    case SE => 26
    case SI => 27
    case SK => 28
    case DE => 29
    case DE_TOT => 30
    case AL => 31
    case IE => 32
    case ME => 33
    case MK => 34
    case RS => 35
    case AM => 36
    case AZ => 37
    case GE => 38
    case TR => 39
    case UA => 40
    case BY => 41
    case UK => 42
    case XK => 43
    case FX => 44
    case MD => 45
    case SM => 46
    case RU => 47
    case EEA30_2007 => 48
    case EU27_2007 => 49
    case EU27_2020 => 50
    case EEA31 => 51
    case EFTA => 52
    case EA18 => 53
    case EA19 => 54
    case EU28 => 55
  }

  /** The aggregate groupings that the country listing leaves out. */
  const Groupings: seq<Region> := [
    EEA30_2007, EU27_2007, EU27_2020, EEA31,
    EFTA, EA18, EA19, EU28
  ]

  predicate IsGrouping(r: Region) {
    r in Groupings
  }

  predicate IsCountry(r: Region) {
    !IsGrouping(r)
  }

  /** Two-letter codes, decoded letter by letter. */
  function FromLetters(a: char, b: char): Option<Region> {
    match a
    case 'A' =>
      (match b
       case 'T' => Some(AT)
       case 'L' => Some(AL)
       case 'M' => Some(AM)
       case 'Z' => Some(AZ)
       case _ => None)
    case 'B' =>
      (match b
       case 'E' => Some(BE)
       case 'G' => Some(BG)
       case 'Y' => Some(BY)
       case _ => None)
    case 'C' =>
      (match b
       case 'H' => Some(CH)
       case 'Y' => Some(CY)
       case 'Z' => Some(CZ)
       case _ => None)
    case 'D' =>
      (match b
       case 'K' => Some(DK)
       case 'E' => Some(DE)
       case _ => None)
    case 'E' =>
      (match b
       case 'E' => Some(EE)
       case 'L' => Some(EL)
       case 'S' => Some(ES)
       case _ => None)
    case 'F' =>
      (match b
       case 'I' => Some(FI)
       case 'R' => Some(FR)
       case 'X' => Some(FX)
       case _ => None)
    case 'H' =>
      (match b
       case 'R' => Some(HR)
       case 'U' => Some(HU)
       case _ => None)
    case 'I' =>
      (match b
       case 'S' => Some(IS)
       case 'T' => Some(IT)
       case 'E' => Some(IE)
       case _ => None)
    case 'L' =>
      (match b
       case 'I' => Some(LI)
       case 'T' => Some(LT)
       case 'U' => Some(LU)
       case 'V' => Some(LV)
       case _ => None)
    case 'M' =>
      (match b
       case 'T' => Some(MT)
       case 'E' => Some(ME)
       case 'K' => Some(MK)
       case 'D' => Some(MD)
       case _ => None)
    case 'N' =>
      (match b
       case 'L' => Some(NL)
       case 'O' => Some(NO)
       case _ => None)
    case 'P' =>
      (match b
       case 'L' => Some(PL)
       case 'T' => Some(PT)
       case _ => None)
    case 'R' =>
      (match b
       case 'O' => Some(RO)
       case 'S' => Some(RS)
       case 'U' => Some(RU)
       case _ => None)
    case 'S' =>
      (match b
       case 'E' => Some(SE)
       case 'I' => Some(SI)
       case 'K' => Some(SK)
       case 'M' => Some(SM)
       case _ => None)
    case 'G' =>
      (match b
       case 'E' => Some(GE)
       case _ => None)
    case 'T' =>
      (match b
       case 'R' => Some(TR)
       case _ => None)
    case 'U' =>
      (match b
       case 'A' => Some(UA)
       case 'K' => Some(UK)
       case _ => None)
    case 'X' =>
      (match b
       case 'K' => Some(XK)
       case _ => None)
    case _ => None
  }

  /** The one member whose value `s` can be: found from its letters for two-letter
      values, and by comparing the whole value for the longer ones. */
  function Candidate(s: string): Option<Region> {
    if |s| == 2 then FromLetters(s[0], s[1])
    else if s == "DE_TOT" then Some(DE_TOT)
    else if s == "EEA30_2007" then Some(EEA30_2007)
    else if s == "EU27_2007" then Some(EU27_2007)
    else if s == "EU27_2020" then Some(EU27_2020)
    else if s == "EEA31" then Some(EEA31)
    else if s == "EFTA" then Some(EFTA)
    else if s == "EA18" then Some(EA18)
    else if s == "EA19" then Some(EA19)
    else if s == "EU28" then Some(EU28)
    else None
  }

  /** `Region(s)`: the member whose value is `s`, or `None` where the enumeration raises
      for an unknown value. Like the enumeration's value map, a candidate is located
      first and then confirmed by comparing its whole value with `s`. */
  function FromCode(s: string): (r: Option<Region>)
    ensures r.Some? ==> Code(r.value) == s
  {
    match Candidate(s)
    case Some(c) => if Code(c) == s then Some(c) else None
    case None => None
  }

  /** Every member's value decodes back to that member. */
  lemma CodeRoundTrip(r: Region)
    ensures FromCode(Code(r)) == Some(r)
  {
    OrdinalBound(r);
    if Ordinal(r) < 14 {
      RoundTripFirst(r);
    } else if Ordinal(r) < 28 {
      RoundTripSecond(r);
    } else if Ordinal(r) < 42 {
      RoundTripThird(r);
    } else {
      RoundTripFourth(r);
    }
  }

  lemma OrdinalBound(r: Region)
    ensures Ordinal(r) < 56
  {
  }

  lemma RoundTripFirst(r: Region)
    requires Ordinal(r) < 14
    ensures FromCode(Code(r)) == Some(r)
  {
  }

  lemma RoundTripSecond(r: Region)
    requires 14 <= Ordinal(r) < 28
    ensures FromCode(Code(r)) == Some(r)
  {
  }

  lemma RoundTripThird(r: Region)
    requires 28 <= Ordinal(r) < 42
    ensures FromCode(Code(r)) == Some(r)
  {
  }

  lemma RoundTripFourth(r: Region)
    requires 42 <= Ordinal(r) < 56
    ensures FromCode(Code(r)) == Some(r)
  {
  }

  /** Distinct members have distinct values. */
  lemma CodeInjective(r: Region, q: Region)
    requires Code(r) == Code(q)
    ensures r == q
  {
    CodeRoundTrip(r);
    CodeRoundTrip(q);
  }

  /** `Declared` lists every member exactly once, at its ordinal. */
  lemma DeclaredOrder()
    ensures |Declared| == 56
    ensures forall i :: 0 <= i < |Declared| ==> Ordinal(Declared[i]) == i
    ensures forall r :: Declared[Ordinal(r)] == r
  {
    forall i | 0 <= i < 56 ensures Ordinal(DeclaredAt(i)) == i {
      if i < 28 {
        OrdinalOfDeclaredLow(i);
      } else {
        OrdinalOfDeclaredHigh(i);
      }
    }
    forall r ensures Ordinal(r) < 56 && DeclaredAt(Ordinal(r)) == r {
      OrdinalBound(r);
      if Ordinal(r) < 14 {
        DeclaredAtOrdinalFirst(r);
      } else if Ordinal(r) < 28 {
        DeclaredAtOrdinalSecond(r);
      } else if Ordinal(r) < 42 {
        DeclaredAtOrdinalThird(r);
      } else {
        DeclaredAtOrdinalFourth(r);
      }
    }
  }

  lemma OrdinalOfDeclaredLow(i: nat)
    requires i < 28
    ensures Ordinal(DeclaredAt(i)) == i
  {
  }

  lemma OrdinalOfDeclaredHigh(i: nat)
    requires 28 <= i < 56
    ensures Ordinal(DeclaredAt(i)) == i
  {
  }

  lemma DeclaredAtOrdinalFirst(r: Region)
    requires Ordinal(r) < 14
    ensures DeclaredAt(Ordinal(r)) == r
  {
  }

  lemma DeclaredAtOrdinalSecond(r: Region)
    requires 14 <= Ordinal(r) < 28
    ensures DeclaredAt(Ordinal(r)) == r
  {
  }

  lemma DeclaredAtOrdinalThird(r: Region)
    requires 28 <= Ordinal(r) < 42
    ensures DeclaredAt(Ordinal(r)) == r
  {
  }

  lemma DeclaredAtOrdinalFourth(r: Region)
    requires 42 <= Ordinal(r) < 56
    ensures DeclaredAt(Ordinal(r)) == r
  {
  }

  /** Groupings are declared last: the first 48 members are countries, the last 8 are not. */
  lemma CountriesFirst()
    ensures forall i :: 0 <= i < 48 ==> IsCountry(Declared[i])
    ensures forall i :: 48 <= i < 56 ==> !IsCountry(Declared[i])
  {
    forall i | 0 <= i < 48 ensures IsCountry(DeclaredAt(i)) {
      if i < 24 {
        CountriesLow(i);
      } else {
        CountriesHigh(i);
      }
    }
    forall i | 48 <= i < 56 ensures !IsCountry(DeclaredAt(i)) {
      GroupingsLast(i);
    }
  }

  lemma CountriesLow(i: nat)
    requires i < 24
    ensures IsCountry(DeclaredAt(i))
  {
  }

  lemma CountriesHigh(i: nat)
    requires 24 <= i < 48
    ensures IsCountry(DeclaredAt(i))
  {
  }

  lemma GroupingsLast(i: nat)
    requires 48 <= i < 56
    ensures !IsCountry(DeclaredAt(i))
  {
  }

  /** `Region.list_all_countries()`: the values of all members, in declaration order,
      leaving out the eight groupings. */
  function ListAllCountries(): (names: seq<string>)
    ensures |names| == 48
    ensures forall r :: Code(r) in names <==> IsCountry(r)
    ensures forall i :: 0 <= i < |names| ==>
      FromCode(names[i]).Some? && IsCountry(FromCode(names[i]).value)
    ensures forall i, j :: 0 <= i < j < |names| ==> names[i] != names[j]
    ensures forall i, j :: 0 <= i < j < |names| ==>
      Ordinal(FromCode(names[i]).value) < Ordinal(FromCode(names[j]).value)
  {
    var kept := Filter(Declared, IsCountry);
    CountriesKept();
    var names := Map(kept, Code);
    ListedInOrder(names);
    names
  }

  /** The mask keeps exactly the first 48 members. */
  lemma CountriesKept()
    ensures Filter(Declared, IsCountry) == Declared[..48]
  {
    CountriesFirst();
    SplitAt48(Declared, IsCountry);
  }

  lemma SplitAt48<T>(s: seq<T>, keep: T -> bool)
    requires |s| == 56
    requires forall i :: 0 <= i < 48 ==> keep(s[i])
    requires forall i :: 48 <= i < 56 ==> !keep(s[i])
    ensures Filter(s, keep) == s[..48]
  {
    assert s == s[..48] + s[48..];
    FilterAppend(s[..48], s[48..], keep);
    FilterAll(s[..48], keep);
    FilterNone(s[48..], keep);
  }

  lemma ListedInOrder(names: seq<string>)
    requires names == Map(Declared[..48], Code)
    ensures |names| == 48
    ensures forall r :: Code(r) in names <==> IsCountry(r)
    ensures forall i :: 0 <= i < |names| ==>
      FromCode(names[i]) == Some(Declared[i]) && IsCountry(Declared[i])
    ensures forall i, j :: 0 <= i < j < |names| ==> names[i] != names[j]
    ensures forall i, j :: 0 <= i < j < |names| ==>
      Ordinal(FromCode(names[i]).value) < Ordinal(FromCode(names[j]).value)
  {
    DeclaredOrder();
    CountriesFirst();
    forall i | 0 <= i < |names| ensures FromCode(names[i]) == Some(Declared[i]) {
      CodeRoundTrip(Declared[i]);
    }
    forall r ensures Code(r) in names <==> IsCountry(r) {
      if IsCountry(r) {
        assert names[Ordinal(r)] == Code(r);
      }
      if Code(r) in names {
        var i :| 0 <= i < |names| && names[i] == Code(r);
        CodeInjective(Declared[i], r);
      }
    }
  }
}

=== FILE: seqs.dfy ===
/** Order-preserving row selection, the one collection operation every cleaner uses
    (a boolean mask applied to a table's rows). */
module Seqs {

  /** The elements of `s` that satisfy `p`, in their original order. */
  function Filter<T>(s: seq<T>, p: T -> bool): (r: seq<T>)
    ensures |r| <= |s|
    ensures forall k :: 0 <= k < |r| ==> r[k] in s && p(r[k])
    ensures forall i :: 0 <= i < |s| && p(s[i]) ==> s[i] in r
    decreases |s|
  {
    if |s| == 0 then []
    else
      Filter(s[..|s| - 1], p) + (if p(s[|s| - 1]) then [s[|s| - 1]] else [])
  }

  /** `f` applied to every element of `s`. */
  function Map<T, U>(s: seq<T>, f: T -> U): (r: seq<U>)
    ensures |r| == |s|
    ensures forall i :: 0 <= i < |s| ==> r[i] == f(s[i])
  {
    seq(|s|, i requires 0 <= i < |s| => f(s[i]))
  }

  /** The elements of `s` at the positions `idx`, in that order. */
  function Pick<T>(s: seq<T>, idx: seq<nat>): (r: seq<T>)
    requires forall k :: 0 <= k < |idx| ==> idx[k] < |s|
    ensures |r| == |idx|
    ensures forall k :: 0 <= k < |idx| ==> r[k] == s[idx[k]]
  {
    seq(|idx|, k requires 0 <= k < |idx| => s[idx[k]])
  }

  /** Two masks applied one after the other. */
  function And<T>(p: T -> bool, q: T -> bool): T -> bool {
    x => p(x) && q(x)
  }

  ghost predicate StrictlyIncreasing(idx: seq<nat>) {
    forall k, l :: 0 <= k < l < |idx| ==> idx[k] < idx[l]
  }

  /** `sub` is `s` restricted to the positions `idx`, taken in increasing order. */
  ghost predicate SubsequenceAt<T>(sub: seq<T>, s: seq<T>, idx: seq<nat>) {
    && |idx| == |sub|
    && StrictlyIncreasing(idx)
    && forall k :: 0 <= k < |idx| ==> idx[k] < |s| && sub[k] == s[idx[k]]
  }

  /** The positions of `s` whose elements satisfy `p`, in increasing order. */
  function KeptPositions<T>(s: seq<T>, p: T -> bool): (idx: seq<nat>)
    ensures |idx| <= |s|
    ensures forall k :: 0 <= k < |idx| ==> idx[k] < |s|
    decreases |s|
  {
    if |s| == 0 then []
    else KeptPositions(s[..|s| - 1], p) + (if p(s[|s| - 1]) then [|s| - 1] else [])
  }

  /** `Filter` keeps exactly the positions satisfying the mask, and reads them in
      increasing order: the kept rows are never reordered. */
  lemma {:induction false} FilterKeepsOrder<T>(s: seq<T>, p: T -> bool)
    ensures SubsequenceAt(Filter(s, p), s, KeptPositions(s, p))
    ensures forall i :: 0 <= i < |s| ==> (p(s[i]) <==> i in KeptPositions(s, p))
    decreases |s|
  {
    if |s| != 0 {
      var n := |s| - 1;
      FilterKeepsOrder(s[..n], p);
      assert Filter(s, p) == Filter(s[..n], p) + (if p(s[n]) then [s[n]] else []);
      assert KeptPositions(s, p) == KeptPositions(s[..n], p) + (if p(s[n]) then [n] else []);
      KeepLast(s, p(s[n]), Filter(s[..n], p), KeptPositions(s[..n], p), Filter(s, p), KeptPositions(s, p));
      KeepLastPositions(s, p, KeptPositions(s[..n], p), KeptPositions(s, p));
    }
  }

  /** One more element, kept or not, at the end of `s`: the subsequence grows with it. */
  lemma KeepLast<T>(s: seq<T>, kept: bool, f': seq<T>, i': seq<nat>, f: seq<T>, idx: seq<nat>)
    requires |s| > 0
    requires SubsequenceAt(f', s[..|s| - 1], i')
    requires f == f' + (if kept then [s[|s| - 1]] else [])
    requires idx == i' + (if kept then [|s| - 1] else [])
    ensures SubsequenceAt(f, s, idx)
  {
    var n := |s| - 1;
    forall k | 0 <= k < |idx| ensures idx[k] < |s| && f[k] == s[idx[k]] {
      if k < |i'| {
        assert idx[k] == i'[k] && f[k] == f'[k] && s[..n][i'[k]] == s[i'[k]];
      }
    }
  }

  /** The positions kept from `s` are those kept from its front, plus the last when the
      mask holds there. */
  lemma KeepLastPositions<T>(s: seq<T>, p: T -> bool, i': seq<nat>, idx: seq<nat>)
    requires |s| > 0
    requires forall i :: 0 <= i < |s| - 1 ==> (p(s[..|s| - 1][i]) <==> i in i')
    requires forall k :: 0 <= k < |i'| ==> i'[k] < |s| - 1
    requires idx == i' + (if p(s[|s| - 1]) then [|s| - 1] else [])
    ensures forall i :: 0 <= i < |s| ==> (p(s[i]) <==> i in idx)
  {
    var n := |s| - 1;
    forall i | 0 <= i < |s| ensures p(s[i]) <==> i in idx {
      if i < n {
        assert s[..n][i] == s[i];
        assert i in idx <==> i in i';
      }
    }
  }

  /** Masking distributes over concatenation: the relative order of rows survives. */
  lemma {:induction false} FilterAppend<T>(a: seq<T>, b: seq<T>, p: T -> bool)
    ensures Filter(a + b, p) == Filter(a, p) + Filter(b, p)
    decreases |b|
  {
    if |b| == 0 {
      assert a + b == a;
    } else {
      var b' := b[..|b| - 1];
      assert (a + b)[..|a + b| - 1] == a + b';
      assert (a + b)[|a + b| - 1] == b[|b| - 1];
      FilterAppend(a, b', p);
    }
  }

  /** Two successive masks select the same rows as their conjunction. */
  lemma {:induction false} FilterFilter<T>(s: seq<T>, p: T -> bool, q: T -> bool)
    ensures Filter(Filter(s, p), q) == Filter(s, And(p, q))
    decreases |s|
  {
    if |s| != 0 {
      var s' := s[..|s| - 1];
      var x := s[|s| - 1];
      FilterFilter(s', p, q);
      FilterAppend(Filter(s', p), if p(x) then [x] else [], q);
      if p(x) {
        assert [x][..0] == [];
      }
    }
  }

  /** A mask every element passes leaves the sequence unchanged. */
  lemma {:induction false} FilterAll<T>(s: seq<T>, p: T -> bool)
    requires forall i :: 0 <= i < |s| ==> p(s[i])
    ensures Filter(s, p) == s
    decreases |s|
  {
    if |s| != 0 {
      FilterAll(s[..|s| - 1], p);
    }
  }

  /** A mask no element passes empties the sequence. */
  lemma {:induction false} FilterNone<T>(s: seq<T>, p: T -> bool)
    requires forall i :: 0 <= i < |s| ==> !p(s[i])
    ensures Filter(s, p) == []
    decreases |s|
  {
    if |s| != 0 {
      FilterNone(s[..|s| - 1], p);
    }
  }

  /** Filtering `s` while reading a parallel sequence `order` (say, where each element of
      `s` came from): `pos[k]` is the `order` entry of the `k`-th kept element, and the
      kept entries keep their relative order. */
  lemma FilterAlong<C, T>(s: seq<T>, order: seq<C>, keep: T -> bool) returns (idx: seq<nat>, pos: seq<C>)
    requires |s| == |order|
    ensures |idx| == |pos| == |Filter(s, keep)|
    ensures StrictlyIncreasing(idx)
    ensures forall k :: 0 <= k < |idx| ==>
      idx[k] < |s| && pos[k] == order[idx[k]] && Filter(s, keep)[k] == s[idx[k]] && keep(s[idx[k]])
    ensures forall p :: 0 <= p < |s| && keep(s[p]) ==> exists k :: 0 <= k < |idx| && idx[k] == p
  {
    FilterKeepsOrder(s, keep);
    idx := KeptPositions(s, keep);
    pos := seq(|idx|, k requires 0 <= k < |idx| => order[idx[k]]);
    forall p | 0 <= p < |s| && keep(s[p]) ensures exists k :: 0 <= k < |idx| && idx[k] == p {
      assert p in idx;
    }
  }

  /** The `k`-th of strictly increasing positions, none below `lo`, is at least `lo + k`. */
  lemma {:induction false} AtLeastPosition(idx: seq<nat>, lo: nat, k: nat)
    requires StrictlyIncreasing(idx)
    requires forall j :: 0 <= j < |idx| ==> lo <= idx[j]
    requires k < |idx|
    ensures lo + k <= idx[k]
    decreases k
  {
    if k > 0 {
      AtLeastPosition(idx, lo, k - 1);
      assert idx[k - 1] < idx[k];
    }
  }

  /** Strictly increasing positions in `[lo, n)` number at most `n - lo`. */
  lemma IncreasingRoom(idx: seq<nat>, lo: nat, n: nat)
    requires lo <= n
    requires StrictlyIncreasing(idx)
    requires forall k :: 0 <= k < |idx| ==> lo <= idx[k] < n
    ensures lo + |idx| <= n
  {
    if |idx| > 0 {
      AtLeastPosition(idx, lo, |idx| - 1);
      assert idx[|idx| - 1] < n;
    }
  }

  /** Strictly increasing positions in `[lo, n)` that hold every one of them are
      `lo, lo + 1, ..., n - 1`. */
  lemma {:induction false} IncreasingCover(idx: seq<nat>, lo: nat, n: nat)
    requires lo <= n
    requires StrictlyIncreasing(idx)
    requires forall k :: 0 <= k < |idx| ==> lo <= idx[k] < n
    requires forall a :: lo <= a < n ==> a in idx
    ensures |idx| == n - lo
    ensures forall k :: 0 <= k < |idx| ==> idx[k] == lo + k
    decreases n - lo
  {
    IncreasingRoom(idx, lo, n);
    if lo < n {
      assert n - 1 in idx;
      var last := |idx| - 1;
      var j :| 0 <= j < |idx| && idx[j] == n - 1;
      assert idx[last] < n;
      assert j == last;
      var front := idx[..last];
      forall a | lo <= a < n - 1 ensures a in front {
        assert a in idx;
        var k :| 0 <= k < |idx| && idx[k] == a;
        assert front[k] == a;
      }
      forall k | 0 <= k < |front| ensures lo <= front[k] < n - 1 {
        assert idx[k] < idx[last];
      }
      IncreasingCover(front, lo, n - 1);
    }
  }
}

=== FILE: text.dfy ===
/** The two pieces of Python string handling the cleaners rely on: `str.split` with an
    explicit one-character separator, and the conversion `int(s)` of a text cell. */
module Text {
  import opened Wrappers

  /** Concatenation of `parts` with `sep` between neighbours (Python's `sep.join`). */
  function Join(parts: seq<string>, sep: char): string
    requires |parts| >= 1
    decreases |parts|
  {
    if |parts| == 1 then parts[0] else parts[0] + [sep] + Join(parts[1..], sep)
  }

  /** Python's `s.split(sep)`: the pieces between occurrences of `sep`, so an empty
      string gives one empty piece and adjacent separators give empty pieces. The
      pieces contain no separator and joining them back gives `s`. */
  function Split(s: string, sep: char): (parts: seq<string>)
    ensures |parts| >= 1
    ensures forall k :: 0 <= k < |parts| ==> sep !in parts[k]
    ensures Join(parts, sep) == s
    decreases |s|
  {
    if |s| == 0 then [""]
    else
      var rest := Split(s[1..], sep);
      if s[0] == sep then
        assert [""] + rest == [""] + rest[0..];
        [""] + rest
      else
        JoinGrowsFirst(s[0], rest, sep);
        assert s == [s[0]] + s[1..];
        [[s[0]] + rest[0]] + rest[1..]
  }

  /** Prepending a character to the first piece prepends it to the joined string. */
  lemma JoinGrowsFirst(c: char, parts: seq<string>, sep: char)
    requires |parts| >= 1
    ensures Join([[c] + parts[0]] + parts[1..], sep) == [c] + Join(parts, sep)
  {
    var ps := [[c] + parts[0]] + parts[1..];
    assert ps[1..] == parts[1..];
  }

  /** `Split` is the only way to cut `s` into separator-free pieces: any such
      decomposition of a string is the one `Split` returns. */
  lemma {:induction false} SplitJoin(parts: seq<string>, sep: char)
    requires |parts| >= 1
    requires forall k :: 0 <= k < |parts| ==> sep !in parts[k]
    ensures Split(Join(parts, sep), sep) == parts
    decreases |Join(parts, sep)|
  {
    var s := Join(parts, sep);
    if parts[0] == "" {
      if |parts| > 1 {
        var tail := parts[1..];
        assert s == [sep] + Join(tail, sep);
        assert s[1..] == Join(tail, sep);
        SplitJoin(tail, sep);
        assert parts == [""] + tail;
      }
    } else {
      var c := parts[0][0];
      var shorter := [parts[0][1..]] + parts[1..];
      assert shorter[1..] == parts[1..];
      assert parts[0] == [c] + shorter[0];
      assert [[c] + shorter[0]] + shorter[1..] == parts;
      JoinGrowsFirst(c, shorter, sep);
      assert s == [c] + Join(shorter, sep);
      assert s[1..] == Join(shorter, sep);
      assert c != sep by { assert parts[0][0] in parts[0]; }
      forall k | 0 <= k < |shorter| ensures sep !in shorter[k] {
        if k == 0 {
          assert forall x :: x in parts[0][1..] ==> x in parts[0];
        } else {
          assert shorter[k] == parts[k];
        }
      }
      SplitJoin(shorter, sep);
    }
  }

  predicate IsDigit(c: char) {
    '0' <= c <= '9'
  }

  predicate AllDigits(s: string) {
    forall i :: 0 <= i < |s| ==> IsDigit(s[i])
  }

  function DigitValue(c: char): nat
    requires IsDigit(c)
  {
    (c as int) - ('0' as int)
  }

  function DigitChar(d: nat): (c: char)
    requires d < 10
    ensures IsDigit(c) && DigitValue(c) == d
  {
    (('0' as int) + d) as char
  }

  /** The number a run of decimal digits denotes (leading zeros allowed). */
  function DigitsValue(ds: string): nat
    requires AllDigits(ds)
    decreases |ds|
  {
    if |ds| == 0 then 0
    else DigitsValue(ds[..|ds| - 1]) * 10 + DigitValue(ds[|ds| - 1])
  }

  /** The decimal numeral of `n` without leading zeros. */
  function ShowNat(n: nat): (ds: string)
    ensures |ds| >= 1 && AllDigits(ds)
    decreases n
  {
    if n < 10 then [DigitChar(n)] else ShowNat(n / 10) + [DigitChar(n % 10)]
  }

  /** `str(n)` for an integer. */
  function ShowInt(n: int): string {
    if n < 0 then "-" + ShowNat(-n) else ShowNat(n)
  }

  /** The characters Python's `int()` skips around a numeral: the six ASCII white-space
      characters and the Unicode ones above U+007F that `str.isspace` accepts. The ASCII
      separators U+001C to U+001F, which `str.isspace` also accepts, are not skipped. */
  predicate IsSpace(c: char) {
    || c == ' ' || '\t' <= c <= '\r'
    || c == '\U{85}' || c == '\U{A0}' || c == '\U{1680}'
    || '\U{2000}' <= c <= '\U{200A}' || c == '\U{2028}' || c == '\U{2029}'
    || c == '\U{202F}' || c == '\U{205F}' || c == '\U{3000}'
  }

  predicate AllSpace(s: string) {
    forall i :: 0 <= i < |s| ==> IsSpace(s[i])
  }

  function StripLeft(s: string): string
    decreases |s|
  {
    if |s| > 0 && IsSpace(s[0]) then StripLeft(s[1..]) else s
  }

  function StripRight(s: string): string
    decreases |s|
  {
    if |s| > 0 && IsSpace(s[|s| - 1]) then StripRight(s[..|s| - 1]) else s
  }

  /** `s.strip()`. */
  function Strip(s: string): string {
    StripRight(StripLeft(s))
  }

  /** Python's `int(s)` on a string: surrounding white space, an optional sign and one
      or more decimal digits; anything else raises, modelled as `None`. */
  function ParseInt(s: string): (r: Option<int>)
    ensures r.Some? ==> exists k :: 0 <= k < |s| && IsDigit(s[k])
  {
    var t := Strip(s);
    var negative := |t| > 0 && t[0] == '-';
    var digits := if |t| > 0 && (t[0] == '-' || t[0] == '+') then t[1..] else t;
    if |digits| > 0 && AllDigits(digits) then
      StripInside(s);
      assert digits[0] in t;
      var magnitude: int := DigitsValue(digits);
      Some(if negative then -magnitude else magnitude)
    else None
  }

  /** `int()` refuses a numeral that starts or ends with one of the ASCII separators
      U+001C to U+001F: it does not skip them, although `str.isspace` accepts them. */
  lemma SeparatorRejected(s: string)
    requires |s| > 0
    requires '\U{1C}' <= s[0] <= '\U{1F}' || '\U{1C}' <= s[|s| - 1] <= '\U{1F}'
    ensures ParseInt(s).None?
  {
    if '\U{1C}' <= s[0] <= '\U{1F}' {
      StripRightFirst(s);
    } else {
      StripLeftLast(s);
    }
  }

  /** Stripping on the right keeps a first character that is not white space. */
  lemma StripRightFirst(s: string)
    requires |s| > 0 && !IsSpace(s[0])
    ensures |StripRight(s)| > 0 && StripRight(s)[0] == s[0]
    decreases |s|
  {
    if IsSpace(s[|s| - 1]) {
      StripRightFirst(s[..|s| - 1]);
    }
  }

  /** Stripping on the left keeps a last character that is not white space. */
  lemma StripLeftLast(s: string)
    requires |s| > 0 && !IsSpace(s[|s| - 1])
    ensures |StripLeft(s)| > 0 && StripLeft(s)[|StripLeft(s)| - 1] == s[|s| - 1]
    decreases |s|
  {
    if IsSpace(s[0]) {
      StripLeftLast(s[1..]);
    }
  }

  /** Stripping only removes characters. */
  lemma StripInside(s: string)
    ensures forall c :: c in Strip(s) ==> c in s
  {
    StripLeftInside(s);
    StripRightInside(StripLeft(s));
  }

  lemma StripLeftInside(s: string)
    ensures forall c :: c in StripLeft(s) ==> c in s
    decreases |s|
  {
    if |s| > 0 && IsSpace(s[0]) {
      StripLeftInside(s[1..]);
    }
  }

  lemma StripRightInside(s: string)
    ensures forall c :: c in StripRight(s) ==> c in s
    decreases |s|
  {
    if |s| > 0 && IsSpace(s[|s| - 1]) {
      StripRightInside(s[..|s| - 1]);
    }
  }

  /** The digits of `ShowNat(n)` denote `n`. */
  lemma {:induction false} ShowNatValue(n: nat)
    ensures DigitsValue(ShowNat(n)) == n
    decreases n
  {
    if n >= 10 {
      var ds := ShowNat(n);
      assert ds[..|ds| - 1] == ShowNat(n / 10);
      ShowNatValue(n / 10);
    }
  }

  lemma {:induction false} StripLeftSpaces(pre: string, t: string)
    requires AllSpace(pre)
    requires |t| > 0 && !IsSpace(t[0])
    ensures StripLeft(pre + t) == t
    decreases |pre|
  {
    if |pre| > 0 {
      assert (pre + t)[1..] == pre[1..] + t;
      StripLeftSpaces(pre[1..], t);
    } else {
      assert pre + t == t;
    }
  }

  lemma {:induction false} StripRightSpaces(t: string, post: string)
    requires AllSpace(post)
    requires |t| > 0 && !IsSpace(t[|t| - 1])
    ensures StripRight(t + post) == t
    decreases |post|
  {
    if |post| > 0 {
      assert (t + post)[..|t + post| - 1] == t + post[..|post| - 1];
      StripRightSpaces(t, post[..|post| - 1]);
    } else {
      assert t + post == t;
    }
  }

  /** The parts of a numeral `int()` accepts: white space, an optional sign, one or
      more ASCII digits, white space. */
  predicate IsNumeral(pre: string, sign: string, ds: string, post: string) {
    && AllSpace(pre) && AllSpace(post)
    && (sign == "" || sign == "+" || sign == "-")
    && |ds| > 0 && AllDigits(ds)
  }

  /** `s` is spelled by the numeral parts `pre`, `sign`, `ds` and `post`. */
  predicate Spells(s: string, pre: string, sign: string, ds: string, post: string) {
    IsNumeral(pre, sign, ds, post) && s == pre + sign + ds + post
  }

  /** The integer a sign and digits denote. */
  function SignedValue(sign: string, ds: string): int
    requires AllDigits(ds)
  {
    var n: int := DigitsValue(ds);
    if sign == "-" then -n else n
  }

  /** `int()` accepts only numerals: an accepted text is white space, an optional sign,
      digits and white space, and its value is what the sign and digits denote. Any
      other text, such as "geo", "20a1" or "2021.0", is rejected. */
  lemma ParseIntSound(s: string)
    ensures ParseInt(s).Some? ==>
      exists pre, sign, ds, post :: Spells(s, pre, sign, ds, post) && ParseInt(s).value == SignedValue(sign, ds)
  {
    if ParseInt(s).Some? {
      var pre, post := StripParts(s);
      var t := Strip(s);
      var sign := if t[0] == '-' || t[0] == '+' then t[..1] else "";
      var ds := t[|sign|..];
      assert t == sign + ds;
      Regroup(pre, sign, ds, post);
      assert Spells(s, pre, sign, ds, post);
    }
  }

  /** A text with no white space at either end is its own strip. */
  lemma StripUnpadded(s: string)
    requires |s| > 0 && !IsSpace(s[0]) && !IsSpace(s[|s| - 1])
    ensures Strip(s) == s
  {
    assert "" + s == s && s + "" == s;
    StripLeftSpaces("", s);
    StripRightSpaces(s, "");
  }

  /** The white space `s.strip()` removes, on either side. */
  lemma StripParts(s: string) returns (pre: string, post: string)
    ensures AllSpace(pre) && AllSpace(post) && s == pre + Strip(s) + post
  {
    pre := StripLeftSplit(s);
    post := StripRightSplit(StripLeft(s));
  }

  lemma Regroup(pre: string, sign: string, ds: string, post: string)
    ensures pre + (sign + ds) + post == pre + sign + ds + post
  {
  }

  /** `int()` accepts every numeral, with the value its sign and digits denote. */
  lemma ParseIntComplete(pre: string, sign: string, ds: string, post: string)
    requires IsNumeral(pre, sign, ds, post)
    ensures ParseInt(pre + sign + ds + post) == Some(SignedValue(sign, ds))
  {
    var t := sign + ds;
    assert t[|t| - 1] == ds[|ds| - 1];
    assert IsDigit(ds[0]);
    assert pre + sign + ds + post == pre + (t + post);
    StripLeftSpaces(pre, t + post);
    StripRightSpaces(t, post);
    assert (pre + t) + post == pre + sign + ds + post;
    assert Strip(pre + sign + ds + post) == t;
    if sign != "" {
      assert t[1..] == ds;
    } else {
      assert t == ds;
    }
  }

  /** The white space stripped on the left, as a prefix of `s`. */
  lemma {:induction false} StripLeftSplit(s: string) returns (pre: string)
    ensures AllSpace(pre) && s == pre + StripLeft(s)
    decreases |s|
  {
    if |s| > 0 && IsSpace(s[0]) {
      var rest := StripLeftSplit(s[1..]);
      pre := [s[0]] + rest;
      assert s == [s[0]] + s[1..];
    } else {
      pre := "";
    }
  }

  /** The white space stripped on the right, as a suffix of `s`. */
  lemma {:induction false} StripRightSplit(s: string) returns (post: string)
    ensures AllSpace(post) && s == StripRight(s) + post
    decreases |s|
  {
    if |s| > 0 && IsSpace(s[|s| - 1]) {
      var rest := StripRightSplit(s[..|s| - 1]);
      post := rest + [s[|s| - 1]];
      assert s == s[..|s| - 1] + [s[|s| - 1]];
    } else {
      post := "";
    }
  }

  /** `int()` reads back what `str()` writes, whatever white space surrounds it: a
      year header such as "2021 " converts to 2021. */
  lemma ParseShowInt(n: int, pre: string, post: string)
    requires AllSpace(pre) && AllSpace(post)
    ensures ParseInt(pre + ShowInt(n) + post) == Some(n)
  {
    var t := ShowInt(n);
    var m := if n < 0 then -n else n;
    var ds := ShowNat(m);
    assert !IsSpace(t[0]) && !IsSpace(t[|t| - 1]) by {
      assert IsDigit(ds[0]) && IsDigit(ds[|ds| - 1]);
      if n < 0 {
        assert t == "-" + ds;
        assert t[|t| - 1] == ds[|ds| - 1];
      }
    }
    assert pre + t + post == pre + (t + post);
    StripLeftSpaces(pre, t + post);
    StripRightSpaces(t, post);
    assert Strip(pre + t + post) == t;
    ShowNatValue(m);
    if n < 0 {
      assert t[1..] == ds;
    }
  }
}

=== FILE: wrappers.dfy ===
/** Failure-compatible result types shared by every stage of the pipeline. */
module Wrappers {

  /** A value that may be absent: a missing table cell, a regex without a match. */
  datatype Option<+T> = None | Some(value: T)

  /** The outcome of a stage that can raise: either its value or the error it raises. */
  datatype Result<+R, +E> = Success(value: R) | Failure(error: E)
}
